=== FILE: README.md ===
# victron-dbus-p1 in Dafny

This project models the core of `dbus-p1`, a bridge that reads DSMR P1
telegrams from a smart meter's serial port and publishes the readings as a
Victron grid-meter service on D-Bus. It covers two parts.

- **The telegram pipeline** (`dbus-p1/dsmr.py`):
  - the CRC-16/ARC lookup table and the table-driven checksum;
  - `TelegramParser.parse`, which cuts at the first `!` and checks the hex trailer;
  - the `Telegram` header/data split and the lookup of an OBIS identifier;
  - `CosemValue`, which decodes a payload;
  - the line-framing loop of `SerialReader._read_telegram`;
  - `read()`, which frames, ASCII-decodes and parses;
  - the byte-size check of `SerialReader.__init__`.
- **The bridge loop** (`dbus-p1/bridge.py`): `P1DbusBridge.run` together with
  `wait_for_p1_port`, `register_dbus` and `unregister_dbus`. It is modelled as a
  transition function. The function consumes observations (whether the port
  exists; how one `read()` ended) and emits abstract actions: `Unregister`,
  `Register`, `Update`, `Sleep`, `AnnounceWait` and `Raise`.

The modules follow the program's structure:

| file | models |
|---|---|
| `Wrappers.dfy` | `Option` and `Result` |
| `Text.dfy` | the Python `str` operations used: `strip`, `rstrip`, `lstrip`, `index`, `split` at the first occurrence |
| `Crc16.dfy` | the lookup table, `crc16`, and a bit-serial CRC-16/ARC reference |
| `HexInt.dfy` | `int(s, 16)` reading back `hex()` text, and the four upper-case hex digits a meter sends |
| `Obis.dfy` | the `OBIS_ID` catalog and the leftmost match of its pattern shape |
| `Cosem.dfy` | `CosemValue` |
| `Telegrams.dfy` | `Telegram.__init__` and `Telegram.__getitem__` |
| `TelegramParser.dfy` | `TelegramParser.parse` |
| `Framing.dfy` | `_read_telegram` as a fold over read events |
| `SerialReader.dfy` | byte size, `read()` |
| `Bridge.dfy` | `run` and the methods it calls |

The serial port is a sequence of read events. Each event is a line of bytes
with the count of bytes still waiting, or a serial fault with its errno. The
empty line is the port's timeout. `float()` is a parameter, `isNumeric`, and a
magnitude is kept as the text it was written as.

## Model

| member | source | states |
|---|---|---|
| Crc16.Table | dbus-p1/dsmr.py:71-79 | the table has 256 entries, and entry `b` is eight rounds of "shift right, and xor 0xA001 when the low bit was set" starting from `b` |
| Crc16.TableEntries | dbus-p1/dsmr.py:72-79 | the table is the CRC-16/ARC table: entries 0, 1, 2, 128 and 255 are 0x0000, 0xC0C1, 0xC181, 0xA001 and 0x4040 |
| Crc16.StepMatchesBitStep | dbus-p1/dsmr.py:103-106 | one table-driven step equals eight bit-serial CRC-16/ARC rounds after xoring the character into the register |
| Crc16.FoldMatchesBitFold | dbus-p1/dsmr.py:100-108 | the table-driven fold equals the bit-serial CRC-16/ARC from any starting register, on every string |
| Crc16.Checksum | dbus-p1/dsmr.py:94-108 | `crc16(s)` is the bit-serial CRC-16/ARC of `s` with initial value 0 (a 16-bit value, so below 0x10000) |
| Crc16.FoldAppend | dbus-p1/dsmr.py:102-106 | folding over `a + b` is folding over `b` from the register `a` leaves |
| Crc16.ChecksumAppend | dbus-p1/dsmr.py:100-108 | `crc16("")` is 0, and `crc16(a + b)` continues the same fold from `crc16(a)` over `b` |
| HexInt.HexLiteral | dbus-p1/dsmr.py:79 | `hex(n)` is `0x` followed by lower-case hex digits whose value is `n`, with no leading zero |
| HexInt.ParseHex | dbus-p1/dsmr.py:87 | `int(_, 16)` fails on blank text (only space, tab, line feed, vertical tab, form feed and carriage return count as blank here), and every number it accepts was written with at least one hex digit |
| HexInt.HexLiteralRoundTrip | dbus-p1/dsmr.py:106 | `int(hex(n), 16) == n` for every `n >= 0`: `int(_, 16)` reads back the `0x`-prefixed text `hex()` writes, so nothing is lost |
| HexInt.Hex4RoundTrip | dbus-p1/dsmr.py:87 | `int(_, 16)` reads back the four upper-case hex digits of any `n < 0x10000` as `n` |
| HexInt.ParseHexDigits | dbus-p1/dsmr.py:87 | `int(_, 16)` of a non-empty run of hex digits is the number they denote |
| HexInt.ParseHexRejects | dbus-p1/dsmr.py:87 | text holding a character that is no hex digit, none of the six characters `int()` skips as blank, no sign, no underscore and no `x` makes `int(_, 16)` fail |
| HexInt.ParseHexEmpty | dbus-p1/dsmr.py:87 | `int("", 16)` fails |
| Text.Strip | dbus-p1/dsmr.py:63 | `strip` gives text no longer than its input that neither starts nor ends with a dropped character |
| Text.StripSlice | dbus-p1/dsmr.py:63 | `strip` gives a contiguous piece of its input, and everything it removed from either end is a dropped character |
| Text.StripKeeps | dbus-p1/dsmr.py:63 | a character that is not dropped survives `strip` |
| Text.RStrip | dbus-p1/dsmr.py:84 | `rstrip` gives a prefix that does not end in a dropped character, and everything it removed is a dropped character |
| Text.LStrip | dbus-p1/dsmr.py:55 | `lstrip` gives a suffix that does not start with a dropped character, and everything it removed is a dropped character |
| Text.IndexOf | dbus-p1/dsmr.py:82 | `index('!')` finds the first `!`, and fails exactly when there is none |
| Text.Find | dbus-p1/dsmr.py:54 | the search for `\r\n` finds its first occurrence at or after the start, or shows there is none |
| Obis.CodesDistinct | dbus-p1/dsmr.py:9-31 | the catalog is `@unique`: two different identifiers have different codes |
| Obis.CodeChars | dbus-p1/dsmr.py:12-31 | every identifier's code has at least five characters, each a digit or a dot |
| Obis.TailUnique | dbus-p1/dsmr.py:12-31 | the lazy "rest of the line, then `\r\n`" part of a pattern can end in one place only |
| Obis.TailEnd | dbus-p1/dsmr.py:12-31 | finds where the tail of a match ends, or shows that no tail matches there |
| Obis.SearchFrom | dbus-p1/dsmr.py:60 | returns the leftmost match at or after a position, or shows there is none |
| Obis.Search | dbus-p1/dsmr.py:59-60 | `re.search` returns the leftmost match of the identifier's pattern, and returns nothing exactly when no match exists |
| Cosem.Payload | dbus-p1/dsmr.py:37 | fails exactly when the line has no `(`; otherwise the line is some text without `(`, the first `(`, the payload, then nothing but `)`, and the payload does not end in `)` |
| Cosem.PayloadOfShape | dbus-p1/dsmr.py:37 | conversely, a line of that shape has exactly that payload |
| Cosem.RStripClosers | dbus-p1/dsmr.py:37 | `rstrip(')')` removes every trailing `)`, however many, from text that does not itself end in `)` |
| Cosem.PayloadOf | dbus-p1/dsmr.py:37 | the payload of `tag(p)` followed by any number of `)` is `p`, when `tag` has no `(` and `p` does not end in `)` |
| Cosem.SplitStar | dbus-p1/dsmr.py:39 | unpacking `split('*')` into two parts succeeds exactly when there is one `*`, and the parts joined by `*` give the text back |
| Cosem.SplitStarUnique | dbus-p1/dsmr.py:39 | text with a single `*` splits there |
| Cosem.Decode | dbus-p1/dsmr.py:35-43 | fails exactly when the line has no `(`; keeps the identifier; the reading renders back to the payload; a magnitude is numeric and the payload held exactly one `*`; text is kept only when the payload has not exactly one `*` or the part before it is not numeric |
| Cosem.DecodeMeasured | dbus-p1/dsmr.py:37-40 | `tag(m*u)` with numeric `m` decodes to magnitude `m` and unit `u` |
| Cosem.DecodePlain | dbus-p1/dsmr.py:39-43 | a payload without `*` is kept as text with no unit |
| Cosem.DecodeNotNumeric | dbus-p1/dsmr.py:40-43 | `m*u` with non-numeric `m` is kept whole as text and never coerced to a number |
| Telegrams.MakeTelegram | dbus-p1/dsmr.py:53-55 | fails exactly when there is no `\r\n`; otherwise the header is the text before the first `\r\n`, and the data is the rest with all leading `\r`/`\n` removed |
| Telegrams.MakeTelegramSplit | dbus-p1/dsmr.py:53-55 | `header + "\r\n" + rest` splits into `header` and `rest` with its leading `\r`/`\n` removed, when the header holds no `\r\n` |
| Telegrams.MakeTelegramRoundTrip | dbus-p1/dsmr.py:53-55 | `header + "\r\n" + data` splits back into `header` and `data` when the header holds no `\r\n` and the data does not start with a line break |
| Telegrams.Lookup | dbus-p1/dsmr.py:57-64 | returns `None` exactly when the identifier's pattern occurs nowhere in the data; a value found carries that identifier |
| Telegrams.LookupLeftmost | dbus-p1/dsmr.py:60-64 | the value is the decoding of the leftmost match, stripped, whatever follows it |
| Telegrams.LookupReadingLine | dbus-p1/dsmr.py:57-64 | data that starts with the line `a-b:<code>(m*u)` yields magnitude `m` and unit `u` for that identifier |
| TelegramParser.Accept | dbus-p1/dsmr.py:91 | `Telegram(body)` either splits `body` at its first `\r\n` or raises |
| TelegramParser.Parse | dbus-p1/dsmr.py:81-91 | raises the missing-marker error exactly when there is no `!`; a parsed telegram's data ends at the first `!` |
| TelegramParser.Check | dbus-p1/dsmr.py:84-91 | a telegram built from the checked text is that text split at its first `\r\n` |
| TelegramParser.EndsAtMarker | dbus-p1/dsmr.py:82-83 | cutting after the first `!` leaves data that ends in that `!` and holds no other |
| TelegramParser.ParseHexRStrip | dbus-p1/dsmr.py:84-87 | the `rstrip()` before `int()` changes no result for a trailer without the separators U+001C to U+001F, nor for any trailer `int()` accepts as it stands |
| TelegramParser.RStripSeparator | dbus-p1/dsmr.py:84-87 | the `rstrip()` does matter for a trailer ending in a separator: `int()` rejects `1` followed by U+001C, but accepts it once stripped |
| TelegramParser.ParseCut | dbus-p1/dsmr.py:82-84 | `parse` checksums exactly the text through the first `!`, against the rest right-stripped |
| TelegramParser.ParseBlankTrailer | dbus-p1/dsmr.py:84-91 | a trailer that is blank after `rstrip` skips the check and gives `Telegram(prefix)` |
| TelegramParser.ParseCheckedTrailer | dbus-p1/dsmr.py:85-91 | with a numeric trailer, a CRC-16 of the prefix that differs gives `None`, and one that matches gives `Telegram(prefix)` |
| TelegramParser.ParseBadTrailer | dbus-p1/dsmr.py:84-87 | a non-blank trailer that `int(_, 16)` rejects once right-stripped makes `parse` raise |
| TelegramParser.ParseSealed | dbus-p1/dsmr.py:81-108 | a telegram sealed with its own CRC as four hex digits parses back into its header and its data through the `!`, with the `\r` and `\n` characters at the start of the data dropped |
| TelegramParser.ParseBlankLine | dbus-p1/dsmr.py:53-55 | a sealed telegram with a blank line after its identification line parses into that header and the readings through the `!`, the blank line removed |
| TelegramParser.ParseCorrupted | dbus-p1/dsmr.py:86-90 | any other four-digit trailer makes `parse` return `None` |
| Framing.Feed | dbus-p1/dsmr.py:129-143 | an empty read or a fault always stops the loop without a telegram; a telegram is delivered only by a `!` line while assembling, and never while newer bytes wait with `only_last` |
| Framing.Run | dbus-p1/dsmr.py:128-143 | the loop stops at its first empty read or fault; a timeout or fault ends on that event; a delivered telegram starts with `/` and ends with the `!` line that stopped it |
| Framing.ReadTelegram | dbus-p1/dsmr.py:125-143 | a delivered telegram starts with `/`, and the loop stopped on a `!` line |
| Framing.DecodeAscii | dbus-p1/dsmr.py:144 | decoding succeeds exactly when every byte is below 128, and gives one character per byte with the same code |
| Framing.RunAppend | dbus-p1/dsmr.py:128-143 | reading `a` and then `b` is reading `a + b`, and the loop resumes in the state `a` left it in |
| Framing.NoiseSkipped | dbus-p1/dsmr.py:132-134 | lines before the first `/` line are ignored |
| Framing.InnerAppended | dbus-p1/dsmr.py:135-136 | lines inside a telegram are appended in order |
| Framing.StartLine | dbus-p1/dsmr.py:133-134 | a `/` line starts the telegram with that line |
| Framing.AssembleRest | dbus-p1/dsmr.py:135-143 | inner lines and a `!` line with nothing newer waiting complete the telegram |
| Framing.FrameDelivered | dbus-p1/dsmr.py:125-143 | noise, a `/` line with any waiting count, inner lines and a `!` line deliver exactly the `/` line through the `!` line |
| Framing.StaleDropped | dbus-p1/dsmr.py:137-141 | a telegram completed while bytes are still waiting is discarded, and the loop is hunting again, whatever was waiting after its `/` line |
| Framing.NewestWins | dbus-p1/dsmr.py:137-141 | with `only_last`, reading after such a discarded telegram, whatever was waiting after its `/` line, is reading the rest from scratch: the newest telegram wins |
| Framing.OlderDropped | dbus-p1/dsmr.py:137-143 | with `only_last` and two complete telegrams buffered, the older is dropped and exactly the newer one is delivered, after all the lines of both |
| Framing.DeliveredShape | dbus-p1/dsmr.py:125-143 | conversely, every delivered telegram is exactly one `/` line, the inner lines after it and the `!` line the loop stopped on, joined in order |
| Framing.TimeoutMidFrame | dbus-p1/dsmr.py:129-131 | an empty read anywhere, mid-telegram included, ends in a timeout and never in a partial telegram |
| SerialReader.PyIndex | dbus-p1/dsmr.py:120 | Python tuple indexing: defined exactly for `-len <= i < len`, where negative indices count from the end |
| SerialReader.ByteSize | dbus-p1/dsmr.py:119-122 | the byte size as written accepts exactly 5 to 8: 5 and 7 give seven bits, 6 and 8 give eight bits |
| SerialReader.ByteSizeIntended | dbus-p1/dsmr.py:122 | the byte size as the error message describes it: accepts exactly 7 (seven bits) and 8 (eight bits) |
| SerialReader.ByteSizeDiscrepancy | dbus-p1/dsmr.py:119-122 | the byte size as written and as intended differ exactly at 5 and 6 |
| SerialReader.Configure | dbus-p1/dsmr.py:112-122 | construction as written succeeds exactly for byte sizes 5 to 8, keeps the port and the baud rate, and sets seven data bits exactly for 5 and 7 |
| SerialReader.ConfigureIntended | dbus-p1/dsmr.py:112-122 | construction as the error message describes it succeeds exactly for byte size 7 or 8, keeps the port and the baud rate, and sets seven data bits exactly for 7 |
| SerialReader.DefaultByteSizeAgrees | dbus-p1/dsmr.py:112 | with the default 7 bits, the check and the construction as written and as intended agree, and construction succeeds |
| SerialReader.DecodeEncode | dbus-p1/dsmr.py:144 | decoding the bytes of ASCII text gives the text back |
| SerialReader.Interpret | dbus-p1/dsmr.py:144-148 | fails as not ASCII exactly when decoding fails; never a timeout or serial error; a telegram's data ends at its first `!` |
| SerialReader.Read | dbus-p1/dsmr.py:146-148 | still reading exactly while the framing loop is pending; a timeout ends on an empty read and a serial error on its fault; a telegram's data ends at its first `!` |
| SerialReader.ReadDelivered | dbus-p1/dsmr.py:146-148 | whatever the framing delivers is decoded and parsed, and nothing else |
| SerialReader.InterpretSealed | dbus-p1/dsmr.py:144-148 | the bytes of a sealed ASCII telegram decode and parse back into its header and its data through the `!`, with the `\r` and `\n` characters at the start of the data dropped |
| SerialReader.ReadSealed | dbus-p1/dsmr.py:125-148 | when the framing delivers the bytes of a sealed telegram, `read()` returns its header and its data through the `!`, with the `\r` and `\n` characters at the start of the data dropped |
| SerialReader.ReadTimesOut | dbus-p1/dsmr.py:129-131 | `read()` raises `TimeoutError` on an empty read anywhere, mid-telegram included |
| Bridge.RegisterService | dbus-p1/bridge.py:45-75 | always unregisters first, so at most one service is held; when the equipment identifier was found and decoded, registers its reading as the serial and streams holding that service; otherwise raises (no identifier, or one without `(`) holding no service |
| Bridge.Restart | dbus-p1/bridge.py:113-115 | leaving the streaming loop unregisters, and no service is held after it |
| Bridge.Acquire | dbus-p1/bridge.py:119-131 | one acquisition read keeps the held service in step with the actions, and never registers a second service |
| Bridge.Stream | dbus-p1/bridge.py:133-147 | one streaming read keeps the held service in step with the actions, and never registers a second service |
| Bridge.Step | dbus-p1/bridge.py:113-147 | one turn of `run` keeps "a service is held exactly while streaming", never registers while a service is held, and after a raise does nothing |
| Bridge.Drive | dbus-p1/bridge.py:113-147 | the same over any sequence of observations |
| Bridge.RunBridge | dbus-p1/bridge.py:113-115 | `run` starts by unregistering, and never holds two services at once |
| Bridge.DisciplinedAppend | dbus-p1/bridge.py:45-47 | "no register while held" holds for a whole trace exactly when it holds for each part from the state the previous part left |
| Bridge.PortAppears | dbus-p1/bridge.py:24-29 | a missing port prints the waiting notice once, then sleeps a second per check; a present port ends the wait |
| Bridge.KeepPolling | dbus-p1/bridge.py:28-29 | after the notice, each further miss sleeps one second, and the port appearing ends the wait |
| Bridge.WaitForPort | dbus-p1/bridge.py:24-29 | `wait_for_p1_port` returns only once the port exists, after one notice and one sleep per further miss, or at once with no notice |
| Bridge.AcquireRetries | dbus-p1/bridge.py:31-43 | in the acquisition loop, a CRC failure, a timeout or a serial error retries; only `ENOENT` first sleeps five seconds |
| Bridge.ReadFailurePropagates | dbus-p1/bridge.py:121-141 | any other exception from `read()` leaves `run` from either loop |
| Bridge.RegisterOnlyOnValidTelegram | dbus-p1/bridge.py:118-131 | one turn registers exactly when acquiring, the read gave a telegram, and its equipment identifier decodes to the serial registered |
| Bridge.RegisterFails | dbus-p1/bridge.py:45-63 | a valid telegram whose equipment identifier decodes starts streaming; one with no or a malformed equipment identifier makes `register_dbus` raise after unregistering |
| Bridge.StreamUpdates | dbus-p1/bridge.py:144-147 | while streaming, a telegram gives exactly one update and a `None` read gives none; both stay streaming, given that the update itself succeeds |
| Bridge.StreamBreaks | dbus-p1/bridge.py:137-143 | while streaming, `ENOENT` or a timeout breaks to the outer loop, which unregisters and waits for the port |
| Bridge.StreamRaises | dbus-p1/bridge.py:138-141 | while streaming, any other serial error leaves `run` |
| Bridge.StreamingRun | dbus-p1/bridge.py:133-147 | streaming through telegrams and `None` reads updates once per telegram, in order, and stays registered |
| Bridge.TerminatedStays | dbus-p1/bridge.py:141 | once `run` has raised, nothing more happens |
| Bridge.RegisterNeedsTelegram | dbus-p1/bridge.py:118-131 | any registration in a run follows a read that gave a valid telegram |

## Left out

- `update_dbus` and the unit formatters (`dbus-p1/bridge.py:12-15`, `82-110`): they are floating-point sums, rounding and division. `Update(telegram)` stands for the whole call, and in the model it never fails. In `bridge.py` any exception it raises leaves `run` with the service still registered. Examples: a reading the telegram lacks (`None.value`), a reading kept as text (`round()` of a joined string, or `-` between strings, at lines 86, 89 and 100), or a zero voltage (`power_watt / voltage` at line 104). That exit is not modelled.
- Bridge.StreamUpdates: a telegram always stays streaming in the model, because `Update` cannot fail; see the line above for the exceptions `update_dbus` can raise.
- `float()`: it is the `isNumeric` parameter. A magnitude is kept as its text, so no rounding or precision is modelled.
- Parity (`dbus-p1/dsmr.py:115-118`): the accepted names are constants of the serial library, which is not part of this model.
- The serial driver, `os.path.exists`, D-Bus registration, `asyncio` and its executor (`dbus-p1/dsmr.py:150-152`): they are foreign I/O. They appear as read events, `PortCheck` observations and actions. The three-second timeout is the empty read.
- The D-Bus service name built from `os.path.basename(port)`, and the contents of the registered item list: only the serial number is kept.
- Printed messages and `CosemValue.__str__` are not modelled, except the waiting notice of `wait_for_p1_port`, which is the `AnnounceWait` action.
- `dbus-p1/__main__.py` holds only argument parsing and the entry point, and is not modelled.
- Obis.Search: `\d` in a Python `str` pattern also matches non-ASCII digits. The model matches ASCII digits only.
- Crc16.Checksum: characters are taken as their code modulo 256, which is what `ord(c) & 0xff` keeps. The bound below 0x10000 is given by the `bv16` type rather than stated as a separate clause.
- The standard CRC-16/ARC check value for "123456789" is not stated as a lemma. The table entries and the agreement with the bit-serial definition are stated instead.
- SerialReader.ReadSealed: it is stated for any events whose framing delivers the sealed bytes. `Framing.FrameDelivered` and `Framing.DeliveredShape` state, in both directions, which event sequences deliver a given frame.
- HexInt.HexLiteralRoundTrip: `dbus-p1/dsmr.py:106` reads the table back with `int(_, 0)`, and base 0 is not modelled. The lemma states the round trip through `int(_, 16)`, which accepts the same `0x`-prefixed text `hex()` writes.
- HexInt.ParseHex: `int()` also skips non-ASCII whitespace and reads non-ASCII digits; the model covers ASCII text only, which is all a telegram can hold after it is decoded as ASCII.
- Text.Strip: `str.strip()` also drops non-ASCII whitespace; `Text.Whitespace` lists the ASCII characters only, for the same reason.
- A malformed numeric payload is not reported as an error: dbus-p1/dsmr.py:41-43 keeps a magnitude that is not a number as text, which is what `Cosem.Decode` does.

## Findings

| source | as written | input that shows it | evidently intended | confidence | as-written member | corrected member |
|---|---|---|---|---|---|---|
| dbus-p1/dsmr.py:119-122 | the byte size picks from a two-element tuple at index `bytesize - 7`, and Python accepts negative indices | `bytesize = 5` gives seven data bits and `bytesize = 6` gives eight, with no error | only 7 and 8 are accepted, as the error message says | not executed | SerialReader.ByteSizeDiscrepancy | SerialReader.ConfigureIntended |

`SerialReader.ByteSize` is the check as written. `SerialReader.ByteSizeDiscrepancy` shows that it and the intended check differ exactly at 5 and 6. `SerialReader.Configure` models the construction as written, so it accepts 5 and 6 as well; `SerialReader.ConfigureIntended` builds on the intended check and accepts only 7 and 8.

=== FILE: Bridge.dfy ===
/** `P1DbusBridge.run` as a state machine. The world answers one question
    per step: does the port exist (`wait_for_p1_port`), or how did a
    `read()` end. The bridge answers with the actions `bridge.py` takes:
    registering and unregistering its D-Bus service, updating it, sleeping,
    printing the waiting notice, or raising out of `run`. */
module Bridge {
  import opened Wrappers
  import opened Obis
  import opened Cosem
  import opened Telegrams
  import opened SerialReader

  /** Where `run` is:
      - `AwaitingPort(noticed)`: inside `wait_for_p1_port`; `noticed` once
        the waiting message has been printed and the one-second polling
        loop has begun;
      - `Acquiring`: about to read in the loop that waits for a first valid
        telegram;
      - `Streaming`: registered, reading and pushing telegrams;
      - `Terminated`: an exception has left `run`. */
  datatype Phase =
    | AwaitingPort(noticed: bool)
    | Acquiring
    | Streaming
    | Terminated

  /** The bridge's state: its phase and the service it holds, known by the
      serial number it was registered with. */
  datatype Bridge = Bridge(phase: Phase, service: Option<Reading>)

  /** What the world tells the bridge: one `os.path.exists(port)`, or the
      outcome of one `read()`. */
  datatype Observation =
    | PortCheck(present: bool)
    | ReadDone(outcome: ReadOutcome)

  /** Why `run` raised: a serial error other than `ENOENT` while streaming,
      any other exception from `read()`, or `register_dbus` failing to read
      the equipment identifier (`None.value`, an `AttributeError`, or a
      line without `(`, an `IndexError`). */
  datatype Fatal =
    | SerialError(errno: int)
    | ReadError(failure: ReadFailure)
    | NoSerialNumber
    | MalformedSerialNumber

  datatype Action =
    | Unregister
    | Register(serial: Reading)
    | Update(telegram: Telegram)
    | Sleep(seconds: nat)
    | AnnounceWait
    | Raise(fatal: Fatal)

  datatype Transition = Transition(next: Bridge, actions: seq<Action>)

  /** A service is held exactly while streaming; after a raise either may
      hold. */
  predicate Valid(b: Bridge)
  {
    match b.phase
    case Streaming => b.service.Some?
    case Terminated => true
    case _ => b.service.None?
  }

  /** Whether a service is held after `acts`, starting from `held`. */
  function HeldAfter(acts: seq<Action>, held: bool): bool
  {
    if acts == [] then held
    else HeldAfter(acts[1..], if acts[0] == Unregister then false else if acts[0].Register? then true else held)
  }

  /** No `Register` while a service is held: at most one service exists at
      any time. */
  predicate Disciplined(acts: seq<Action>, held: bool)
  {
    if acts == [] then true
    else if acts[0].Register? then !held && Disciplined(acts[1..], true)
    else if acts[0] == Unregister then Disciplined(acts[1..], false)
    else Disciplined(acts[1..], held)
  }

  /** `register_dbus(name, telegram)`: unregister first, then take the
      service's serial number from `found`, the lookup of the equipment
      identifier in the telegram. */
  function RegisterService(b: Bridge, found: Result<Option<CosemValue>, CosemError>): (r: Transition)
    ensures Disciplined(r.actions, b.service.Some?)
    ensures r.next.service.Some? == HeldAfter(r.actions, b.service.Some?)
    ensures |r.actions| == 2 && r.actions[0] == Unregister
    ensures r.next.phase == Streaming <==> found.Success? && found.value.Some?
    ensures r.next.phase != Streaming ==> r.next.phase == Terminated
    ensures r.next.phase == Streaming ==>
      r.actions[1] == Register(found.value.value.reading) && r.next.service == Some(found.value.value.reading)
    ensures r.next.phase == Terminated ==>
      r.actions[1] == Raise(if found.Success? then NoSerialNumber else MalformedSerialNumber) && r.next.service == None
  {
    match found
    case Success(Some(v)) =>
      var acts := [Unregister, Register(v.reading)];
      assert acts[1..][1..] == [];
      assert HeldAfter(acts[1..], false) == HeldAfter([], true);
      Transition(Bridge(Streaming, Some(v.reading)), acts)
    case Success(None) => Transition(Bridge(Terminated, None), [Unregister, Raise(NoSerialNumber)])
    case Failure(_) => Transition(Bridge(Terminated, None), [Unregister, Raise(MalformedSerialNumber)])
  }

  /** Leaving the streaming loop with `break`: the outer loop unregisters
      and waits for the port again. */
  function Restart(): (r: Transition)
    ensures r.next.service.None? && r.actions == [Unregister]
  {
    Transition(Bridge(AwaitingPort(false), None), [Unregister])
  }

  /** One read in the loop that waits for a first valid telegram. */
  function Acquire(b: Bridge, o: ReadOutcome, isNumeric: string -> bool): (r: Transition)
    requires b.phase == Acquiring
    ensures Valid(b) ==> Valid(r.next) && Disciplined(r.actions, b.service.Some?)
    ensures r.next.service.Some? == HeldAfter(r.actions, b.service.Some?)
  {
    match o
    case Ok(t) => RegisterService(b, Lookup(t, EquipmentIdentifier, isNumeric))
    case CrcFail => Transition(b.(phase := AwaitingPort(false)), [])
    case TimedOut => Transition(b.(phase := AwaitingPort(false)), [])
    case SerialFault(e) =>
      Transition(b.(phase := AwaitingPort(false)), if e == ENOENT then [Sleep(5)] else [])
    case Failed(f) => Transition(b.(phase := Terminated), [Raise(ReadError(f))])
  }

  /** One read in the streaming loop. */
  function Stream(b: Bridge, o: ReadOutcome): (r: Transition)
    requires b.phase == Streaming
    ensures Valid(b) ==> Valid(r.next) && Disciplined(r.actions, b.service.Some?)
    ensures r.next.service.Some? == HeldAfter(r.actions, b.service.Some?)
  {
    match o
    case Ok(t) => Transition(b, [Update(t)])
    case CrcFail => Transition(b, [])
    case TimedOut => Restart()
    case SerialFault(e) =>
      if e == ENOENT then Restart() else Transition(b.(phase := Terminated), [Raise(SerialError(e))])
    case Failed(f) => Transition(b.(phase := Terminated), [Raise(ReadError(f))])
  }

  /** One turn of `run`. An observation that does not answer what the
      current phase asks changes nothing. */
  function Step(b: Bridge, obs: Observation, isNumeric: string -> bool): (r: Transition)
    ensures Valid(b) ==> Valid(r.next)
    ensures Valid(b) ==> Disciplined(r.actions, b.service.Some?)
    ensures r.next.service.Some? == HeldAfter(r.actions, b.service.Some?)
    ensures b.phase.Terminated? ==> r == Transition(b, [])
  {
    match b.phase
    case AwaitingPort(noticed) =>
      if !obs.PortCheck? then Transition(b, [])
      else if obs.present then Transition(b.(phase := Acquiring), [])
      else if noticed then Transition(b, [Sleep(1)])
      else Transition(b.(phase := AwaitingPort(true)), [AnnounceWait])
    case Acquiring =>
      if !obs.ReadDone? then Transition(b, []) else Acquire(b, obs.outcome, isNumeric)
    case Streaming =>
      if !obs.ReadDone? then Transition(b, []) else Stream(b, obs.outcome)
    case Terminated => Transition(b, [])
  }

  /** `run` driven through a sequence of observations. */
  function Drive(b: Bridge, obs: seq<Observation>, isNumeric: string -> bool): (r: Transition)
    ensures Valid(b) ==> Valid(r.next) && Disciplined(r.actions, b.service.Some?)
    ensures r.next.service.Some? == HeldAfter(r.actions, b.service.Some?)
    decreases |obs|
  {
    if obs == [] then Transition(b, [])
    else
      var first := Step(b, obs[0], isNumeric);
      var rest := Drive(first.next, obs[1..], isNumeric);
      DisciplinedAppend(first.actions, rest.actions, b.service.Some?);
      Transition(rest.next, first.actions + rest.actions)
  }

  /** The bridge as `run` starts it: no service, unregistering first. */
  const Initial: Bridge := Bridge(AwaitingPort(false), None)

  /** `run()` from its start: the outer loop's first `unregister_dbus`,
      then the observations. */
  function RunBridge(obs: seq<Observation>, isNumeric: string -> bool): (r: Transition)
    ensures Valid(r.next)
    ensures Disciplined(r.actions, false) && |r.actions| > 0 && r.actions[0] == Unregister
    ensures r.next.service.Some? == HeldAfter(r.actions, false)
  {
    var d := Drive(Initial, obs, isNumeric);
    DisciplinedAppend([Unregister], d.actions, false);
    Transition(d.next, [Unregister] + d.actions)
  }

  // ----- properties -----

  /** `Disciplined` and `HeldAfter` split at any point of a trace. */
  lemma {:induction false} DisciplinedAppend(a: seq<Action>, c: seq<Action>, held: bool)
    ensures Disciplined(a + c, held) <==> Disciplined(a, held) && Disciplined(c, HeldAfter(a, held))
    ensures HeldAfter(a + c, held) == HeldAfter(c, HeldAfter(a, held))
    decreases |a|
  {
    if a == [] {
      assert a + c == c;
    } else {
      assert (a + c)[0] == a[0] && (a + c)[1..] == a[1..] + c;
      var h := if a[0] == Unregister then false else if a[0].Register? then true else held;
      DisciplinedAppend(a[1..], c, h);
    }
  }

  /** The waiting message: a missing port prints it once and then polls
      every second; the port appearing ends the wait. */
  lemma PortAppears(s: Option<Reading>, isNumeric: string -> bool)
    ensures Step(Bridge(AwaitingPort(false), s), PortCheck(false), isNumeric)
      == Transition(Bridge(AwaitingPort(true), s), [AnnounceWait])
    ensures Step(Bridge(AwaitingPort(true), s), PortCheck(false), isNumeric)
      == Transition(Bridge(AwaitingPort(true), s), [Sleep(1)])
    ensures forall noticed: bool ::
      Step(Bridge(AwaitingPort(noticed), s), PortCheck(true), isNumeric) == Transition(Bridge(Acquiring, s), [])
  {
  }

  function Absent(n: nat): (r: seq<Observation>)
    ensures |r| == n && forall i | 0 <= i < n :: r[i] == PortCheck(false)
  {
    seq(n, _ => PortCheck(false))
  }

  function Sleeps(n: nat): (r: seq<Action>)
    ensures |r| == n && forall i | 0 <= i < n :: r[i] == Sleep(1)
  {
    seq(n, _ => Sleep(1))
  }

  /** Polling after the notice: each further miss sleeps a second. */
  lemma {:induction false} KeepPolling(s: Option<Reading>, n: nat, isNumeric: string -> bool)
    ensures Drive(Bridge(AwaitingPort(true), s), Absent(n) + [PortCheck(true)], isNumeric)
      == Transition(Bridge(Acquiring, s), Sleeps(n))
    decreases n
  {
    var b := Bridge(AwaitingPort(true), s);
    var obs := Absent(n) + [PortCheck(true)];
    if n == 0 {
      assert obs == [PortCheck(true)];
      assert obs[1..] == [];
    } else {
      assert obs[0] == PortCheck(false);
      assert obs[1..] == Absent(n - 1) + [PortCheck(true)];
      KeepPolling(s, n - 1, isNumeric);
      assert [Sleep(1)] + Sleeps(n - 1) == Sleeps(n);
    }
  }

  /** `wait_for_p1_port` returns once the port exists, having printed its
      message at most once: never if the port was there at the first look,
      and otherwise once, followed by one sleep per further miss. */
  lemma WaitForPort(s: Option<Reading>, n: nat, isNumeric: string -> bool)
    ensures Drive(Bridge(AwaitingPort(false), s), Absent(n) + [PortCheck(true)], isNumeric)
      == Transition(Bridge(Acquiring, s), if n == 0 then [] else [AnnounceWait] + Sleeps(n - 1))
  {
    var obs := Absent(n) + [PortCheck(true)];
    if n == 0 {
      assert obs == [PortCheck(true)];
      assert obs[1..] == [];
    } else {
      assert obs[0] == PortCheck(false);
      assert obs[1..] == Absent(n - 1) + [PortCheck(true)];
      KeepPolling(s, n - 1, isNumeric);
    }
  }

  /** The acquisition loop retries on everything `run` catches: after
      `ENOENT` it sleeps five seconds first, after any other serial error, a
      timeout or a CRC mismatch it goes straight back to waiting for the
      port. The same loop is `wait_for_valid_telegram`. */
  lemma AcquireRetries(s: Option<Reading>, o: ReadOutcome, isNumeric: string -> bool)
    requires o == CrcFail || o == TimedOut || o.SerialFault?
    ensures Step(Bridge(Acquiring, s), ReadDone(o), isNumeric)
      == Transition(Bridge(AwaitingPort(false), s), if o == SerialFault(ENOENT) then [Sleep(5)] else [])
  {
  }

  /** Any other exception from `read()` leaves `run` from either loop. */
  lemma ReadFailurePropagates(b: Bridge, f: ReadFailure, isNumeric: string -> bool)
    requires b.phase == Acquiring || b.phase == Streaming
    ensures Step(b, ReadDone(Failed(f)), isNumeric) == Transition(b.(phase := Terminated), [Raise(ReadError(f))])
  {
  }

  /** A service is registered in exactly one situation: acquiring, a valid
      telegram arrives, and it holds the equipment identifier; the serial
      number registered is that identifier's value. */
  lemma RegisterOnlyOnValidTelegram(b: Bridge, obs: Observation, v: Reading, isNumeric: string -> bool)
    ensures Register(v) in Step(b, obs, isNumeric).actions
      <==> b.phase == Acquiring && obs.ReadDone? && obs.outcome.Ok?
           && Lookup(obs.outcome.telegram, EquipmentIdentifier, isNumeric) == Success(Some(CosemValue(EquipmentIdentifier, v)))
  {
    if b.phase == Acquiring && obs.ReadDone? && obs.outcome.Ok? {
      var t := obs.outcome.telegram;
      match Lookup(t, EquipmentIdentifier, isNumeric)
      case Success(Some(w)) =>
        assert w.name == EquipmentIdentifier;
      case Success(None) =>
      case Failure(_) =>
    }
  }

  /** A valid telegram whose equipment identifier is found and decodes
      starts streaming; one whose identifier is missing or has no `(` makes
      `register_dbus` raise, after it has unregistered. */
  lemma RegisterFails(s: Option<Reading>, t: Telegram, isNumeric: string -> bool)
    ensures var found := Lookup(t, EquipmentIdentifier, isNumeric);
      found != Success(None) && found.Success? ==> Step(Bridge(Acquiring, s), ReadDone(Ok(t)), isNumeric).next.phase == Streaming
    ensures var found := Lookup(t, EquipmentIdentifier, isNumeric);
      found == Success(None) || found.Failure? ==>
        && Step(Bridge(Acquiring, s), ReadDone(Ok(t)), isNumeric).next.phase == Terminated
        && Step(Bridge(Acquiring, s), ReadDone(Ok(t)), isNumeric).actions
          == [Unregister, Raise(if found.Success? then NoSerialNumber else MalformedSerialNumber)]
  {
  }

  /** While streaming, each valid telegram is pushed exactly once and a
      CRC mismatch does nothing; neither leaves the loop. */
  lemma StreamUpdates(r: Reading, o: ReadOutcome, isNumeric: string -> bool)
    requires o.Ok? || o == CrcFail
    ensures Step(Bridge(Streaming, Some(r)), ReadDone(o), isNumeric)
      == Transition(Bridge(Streaming, Some(r)), if o.Ok? then [Update(o.telegram)] else [])
  {
  }

  /** While streaming, `ENOENT` or a timeout breaks to the outer loop, which
      unregisters and waits for the port again. */
  lemma StreamBreaks(r: Reading, o: ReadOutcome, isNumeric: string -> bool)
    requires o == TimedOut || o == SerialFault(ENOENT)
    ensures Step(Bridge(Streaming, Some(r)), ReadDone(o), isNumeric)
      == Transition(Bridge(AwaitingPort(false), None), [Unregister])
  {
  }

  /** While streaming, any other serial error leaves `run`, the service
      still registered. */
  lemma StreamRaises(r: Reading, e: int, isNumeric: string -> bool)
    requires e != ENOENT
    ensures Step(Bridge(Streaming, Some(r)), ReadDone(SerialFault(e)), isNumeric)
      == Transition(Bridge(Terminated, Some(r)), [Raise(SerialError(e))])
  {
  }

  /** The updates a run of valid and CRC-failed telegrams produces. */
  function Updates(obs: seq<ReadOutcome>): seq<Action>
    requires forall i | 0 <= i < |obs| :: obs[i].Ok? || obs[i] == CrcFail
  {
    if obs == [] then []
    else (if obs[0].Ok? then [Update(obs[0].telegram)] else []) + Updates(obs[1..])
  }

  function AsReads(obs: seq<ReadOutcome>): (r: seq<Observation>)
    ensures |r| == |obs| && forall i | 0 <= i < |obs| :: r[i] == ReadDone(obs[i])
  {
    seq(|obs|, i requires 0 <= i < |obs| => ReadDone(obs[i]))
  }

  /** Streaming through valid and CRC-failed telegrams stays streaming,
      with the same service, and pushes the valid ones in order, each
      once. */
  lemma {:induction false} StreamingRun(r: Reading, obs: seq<ReadOutcome>, isNumeric: string -> bool)
    requires forall i | 0 <= i < |obs| :: obs[i].Ok? || obs[i] == CrcFail
    ensures Drive(Bridge(Streaming, Some(r)), AsReads(obs), isNumeric)
      == Transition(Bridge(Streaming, Some(r)), Updates(obs))
    decreases |obs|
  {
    if obs != [] {
      StreamUpdates(r, obs[0], isNumeric);
      assert AsReads(obs)[1..] == AsReads(obs[1..]);
      StreamingRun(r, obs[1..], isNumeric);
    }
  }

  /** Once `run` has raised, nothing more happens. */
  lemma {:induction false} TerminatedStays(b: Bridge, obs: seq<Observation>, isNumeric: string -> bool)
    requires b.phase.Terminated?
    ensures Drive(b, obs, isNumeric) == Transition(b, [])
    decreases |obs|
  {
    if obs != [] {
      TerminatedStays(b, obs[1..], isNumeric);
    }
  }

  /** A `Register` anywhere in a run is owed to a valid telegram among the
      observations: after a restart, the service is announced again only
      once a new valid telegram has been read. */
  lemma {:induction false} RegisterNeedsTelegram(b: Bridge, obs: seq<Observation>, v: Reading, isNumeric: string -> bool)
    requires Register(v) in Drive(b, obs, isNumeric).actions
    ensures exists i | 0 <= i < |obs| :: obs[i].ReadDone? && obs[i].outcome.Ok?
    decreases |obs|
  {
    var first := Step(b, obs[0], isNumeric);
    var rest := Drive(first.next, obs[1..], isNumeric);
    assert Drive(b, obs, isNumeric).actions == first.actions + rest.actions;
    if Register(v) in first.actions {
      RegisterOnlyOnValidTelegram(b, obs[0], v, isNumeric);
      assert obs[0].ReadDone? && obs[0].outcome.Ok?;
    } else {
      assert Register(v) in rest.actions;
      RegisterNeedsTelegram(first.next, obs[1..], v, isNumeric);
      var i :| 0 <= i < |obs[1..]| && obs[1..][i].ReadDone? && obs[1..][i].outcome.Ok?;
      assert obs[i + 1] == obs[1..][i];
    }
  }
}

=== FILE: Cosem.dfy ===
/** The COSEM value of one data line: the text between the first `(` and
    the trailing `)`, split into a magnitude and a unit at `*` when that
    works, and kept whole otherwise. */
module Cosem {
  import opened Wrappers
  import opened Text
  import opened Obis

  /** What a data line holds. A `Measured` magnitude is the text that
      `float()` accepted; `float()` itself is the `isNumeric` parameter. */
  datatype Reading =
    | Measured(magnitude: string, unit: string)
    | Plain(text: string)
  {
    /** The payload text the reading was decoded from. */
    function Render(): string
    {
      match this
      case Measured(m, u) => m + "*" + u
      case Plain(t) => t
    }
  }

  datatype CosemValue = CosemValue(name: ObisId, reading: Reading)

  /** `line.split('(', 1)[1]` raises `IndexError` for a line without `(`. */
  datatype CosemError = NoOpenParen

  /** `line` is some text without `(`, then the `(` at position `j`,
      then `p`, then nothing but `)`. */
  ghost predicate Encloses(line: string, j: nat, p: string)
  {
    j < |line| && line[j] == '(' && '(' !in line[..j] && j + 1 + |p| <= |line| &&
    line[j + 1..j + 1 + |p|] == p && forall i | j + 1 + |p| <= i < |line| :: line[i] == ')'
  }

  /** The text after the first `(` with every trailing `)` removed. */
  function Payload(line: string): (r: Option<string>)
    ensures r.None? <==> '(' !in line
    ensures r.Some? ==> r.value == [] || r.value[|r.value| - 1] != ')'
    ensures r.Some? ==> exists j :: Encloses(line, j, r.value)
  {
    match IndexOf(line, '(')
    case None => None
    case Some(k) => PayloadShape(line, k); Some(RStrip(line[k + 1..], {')'}))
  }

  lemma PayloadShape(line: string, k: nat)
    requires k < |line| && line[k] == '(' && '(' !in line[..k]
    ensures Encloses(line, k, RStrip(line[k + 1..], {')'}))
  {
    var rest := line[k + 1..];
    var p := RStrip(rest, {')'});
    assert rest[..|p|] == line[k + 1..k + 1 + |p|];
    forall i | k + 1 + |p| <= i < |line|
      ensures line[i] == ')'
    {
      assert line[i] == rest[i - k - 1];
    }
  }

  /** `n` closing parentheses. */
  function Closers(n: nat): (r: string)
    ensures |r| == n && forall i | 0 <= i < n :: r[i] == ')'
  {
    if n == 0 then [] else Closers(n - 1) + ")"
  }

  /** `data.split('*')` unpacked into exactly two parts: possible exactly
      when `data` holds one `*`. */
  function SplitStar(data: string): (r: Option<(string, string)>)
    ensures r.Some? <==> multiset(data)['*'] == 1
    ensures r.Some? ==> data == r.value.0 + "*" + r.value.1
    ensures r.Some? ==> '*' !in r.value.0 && '*' !in r.value.1
  {
    match IndexOf(data, '*')
    case None => None
    case Some(k) =>
      var before, after := data[..k], data[k + 1..];
      assert data == before + "*" + after;
      assert multiset(data) == multiset(before) + multiset("*") + multiset(after);
      if '*' in after then None else Some((before, after))
  }

  /** `CosemValue(name, line)`: the payload becomes a magnitude and unit
      when it splits at its single `*` and the part before it is numeric;
      otherwise it stays whole as text, never coerced to a number. */
  function Decode(name: ObisId, line: string, isNumeric: string -> bool): (r: Result<CosemValue, CosemError>)
    ensures r.Failure? <==> '(' !in line
    ensures r.Success? ==> r.value.name == name && r.value.reading.Render() == Payload(line).value
    ensures r.Success? && r.value.reading.Measured? ==>
      isNumeric(r.value.reading.magnitude) && '*' !in r.value.reading.magnitude && '*' !in r.value.reading.unit
    ensures r.Success? && r.value.reading.Plain? ==>
      multiset(r.value.reading.text)['*'] != 1 || !isNumeric(SplitStar(r.value.reading.text).value.0)
  {
    match Payload(line)
    case None => Failure(NoOpenParen)
    case Some(p) =>
      match SplitStar(p)
      case Some((m, u)) =>
        if isNumeric(m) then Success(CosemValue(name, Measured(m, u)))
        else Success(CosemValue(name, Plain(p)))
      case None => Success(CosemValue(name, Plain(p)))
  }

  // ----- properties -----

  /** Text with a single `*` splits there and nowhere else. */
  lemma SplitStarUnique(a: string, b: string)
    requires '*' !in a && '*' !in b
    ensures SplitStar(a + "*" + b) == Some((a, b))
  {
    var d := a + "*" + b;
    assert d[|a|] == '*';
    assert d[..|a|] == a;
    assert d[|a| + 1..] == b;
  }

  /** Stripping the closing parentheses off `p` followed by any number
      of them gives `p` back, when `p` does not itself end in `)`. */
  lemma {:induction false} RStripClosers(p: string, n: nat)
    requires p == [] || p[|p| - 1] != ')'
    ensures RStrip(p + Closers(n), {')'}) == p
  {
    if n == 0 {
      assert p + Closers(0) == p;
    } else {
      var x := p + Closers(n);
      assert x[..|x| - 1] == p + Closers(n - 1);
      RStripClosers(p, n - 1);
    }
  }

  /** The payload of `tag(p)` followed by any number of `)` is `p`, for a
      tag without `(` and a `p` that does not itself end in `)`. */
  lemma PayloadOf(tag: string, p: string, n: nat)
    requires '(' !in tag
    requires p == [] || p[|p| - 1] != ')'
    ensures Payload(tag + "(" + p + Closers(n)) == Some(p)
  {
    var line := tag + "(" + p + Closers(n);
    assert line[..|tag|] == tag && line[|tag|] == '(';
    assert line[|tag| + 1..|tag| + 1 + |p|] == p;
    forall i | |tag| + 1 + |p| <= i < |line|
      ensures line[i] == ')'
    {
      assert line[i] == Closers(n)[i - |tag| - 1 - |p|];
    }
    PayloadOfShape(line, |tag|, p);
  }

  /** Conversely, a line of that shape has exactly that payload: the
      shape in `Payload`'s contract pins the payload down. */
  lemma PayloadOfShape(line: string, j: nat, p: string)
    requires Encloses(line, j, p)
    requires p == [] || p[|p| - 1] != ')'
    ensures Payload(line) == Some(p)
  {
    IndexOfFirst(line, '(', j);
    var n := |line| - j - 1 - |p|;
    assert line[j + 1..] == p + Closers(n);
    RStripClosers(p, n);
  }

  /** Writing a numeric magnitude and a unit as `tag(magnitude*unit)` and
      decoding the line gives them back. */
  lemma DecodeMeasured(name: ObisId, tag: string, m: string, u: string, isNumeric: string -> bool)
    requires '(' !in tag && '*' !in m && '*' !in u && isNumeric(m)
    requires u == [] || u[|u| - 1] != ')'
    ensures Decode(name, tag + "(" + m + "*" + u + ")", isNumeric) == Success(CosemValue(name, Measured(m, u)))
  {
    var p := m + "*" + u;
    assert p[|p| - 1] != ')';
    assert tag + "(" + m + "*" + u + ")" == tag + "(" + p + ")";
    assert Closers(1) == ")";
    PayloadOf(tag, p, 1);
    SplitStarUnique(m, u);
  }

  /** A payload without `*` is kept as text whatever `float()` would say
      about it. */
  lemma DecodePlain(name: ObisId, tag: string, p: string, isNumeric: string -> bool)
    requires '(' !in tag && '*' !in p
    requires p == [] || p[|p| - 1] != ')'
    ensures Decode(name, tag + "(" + p + ")", isNumeric) == Success(CosemValue(name, Plain(p)))
  {
    assert Closers(1) == ")";
    PayloadOf(tag, p, 1);
    assert multiset(p)['*'] == 0;
  }

  /** A single `*` after a magnitude `float()` rejects also keeps the whole
      payload as text, unit and all. */
  lemma DecodeNotNumeric(name: ObisId, tag: string, m: string, u: string, isNumeric: string -> bool)
    requires '(' !in tag && '*' !in m && '*' !in u && !isNumeric(m)
    requires u == [] || u[|u| - 1] != ')'
    ensures Decode(name, tag + "(" + m + "*" + u + ")", isNumeric) == Success(CosemValue(name, Plain(m + "*" + u)))
  {
    var p := m + "*" + u;
    assert p[|p| - 1] != ')';
    assert tag + "(" + m + "*" + u + ")" == tag + "(" + p + ")";
    assert Closers(1) == ")";
    PayloadOf(tag, p, 1);
    SplitStarUnique(m, u);
  }
}

=== FILE: Crc16.dfy ===
/** The table-driven CRC-16/ARC checksum of a DSMR P1 telegram: reflected
    polynomial 0xA001, initial value 0, computed over the characters from the
    `/` start marker through the `!` end marker (DSMR P1 Companion Standard
    5.0.2, section 6.2). */
module Crc16 {

  /** The reflected form of the generator polynomial 0x8005. */
  const Poly: bv16 := 0xA001

  /** One bit round of the table construction: shift right, and fold the
      polynomial in when the bit shifted out was set. */
  function Round(x: bv16): bv16
  {
    (x >> 1) ^ (if x & 1 == 1 then Poly else 0)
  }

  /** `n` successive rounds starting from `x`. */
  function Rounds(x: bv16, n: nat): bv16
    decreases n
  {
    if n == 0 then x else Rounds(Round(x), n - 1)
  }

  /** Table entry for index `b`: eight rounds starting from `b`, as the
      source's `for j in range(0, 8)` loop computes it. */
  function Entry(b: bv8): bv16
  {
    Rounds(b as bv16, 8)
  }

  /** The 256-entry lookup table. (The source stores each entry as its
      `hex()` text and reads it back with `int(_, 0)`;
      `HexInt.HexLiteralRoundTrip` shows that this storage returns the
      number unchanged.) */
  function Table(): (t: seq<bv16>)
    ensures |t| == 256
    ensures forall b: bv8 :: t[b as int] == Entry(b)
  {
    seq(256, i requires 0 <= i < 256 => Entry(i as bv8))
  }

  /** The low eight bits of a character code: `ord(c) & 0xff`. */
  function LowByte(c: char): bv8
  {
    ((c as int) % 256) as bv8
  }

  /** The table index of one step: `(crc ^ d) & 0xff`. */
  function Index(crc: bv16, d: bv8): bv8
  {
    ((crc ^ d as bv16) & 0xFF) as bv8
  }

  /** One table-driven step for byte `d`: `(crc >> 8) ^ table[(crc ^ d) & 0xff]`. */
  function ByteStep(crc: bv16, d: bv8): bv16
  {
    (crc >> 8) ^ Table()[Index(crc, d) as int]
  }

  /** One table-driven step for character `c`. */
  function Step(crc: bv16, c: char): bv16
  {
    ByteStep(crc, LowByte(c))
  }

  /** The running checksum after folding `Step` over `s` from `crc`. */
  function Fold(crc: bv16, s: string): bv16
    decreases |s|
  {
    if s == [] then crc else Fold(Step(crc, s[0]), s[1..])
  }


  // ----- the bit-serial reference definition -----

  /** One character of the textbook bit-serial CRC-16/ARC: xor the byte into
      the register, then eight rounds. */
  function BitStep(crc: bv16, c: char): bv16
  {
    Rounds(crc ^ LowByte(c) as bv16, 8)
  }

  /** The bit-serial CRC of `s` from register value `crc`. */
  function BitFold(crc: bv16, s: string): bv16
    decreases |s|
  {
    if s == [] then crc else BitFold(BitStep(crc, s[0]), s[1..])
  }

  // ----- the table-driven step is the bit-serial step -----

  /** Eight rounds written out. */
  function Eight(x: bv16): bv16
  {
    Round(Round(Round(Round(Round(Round(Round(Round(x))))))))
  }

  lemma EightRounds(x: bv16)
    ensures Rounds(x, 8) == Eight(x)
  {
  }

  /** Eight rounds of `x` are the shifted-out high byte plus eight rounds of
      the low byte: the identity that makes a 256-entry table sufficient. */
  lemma SplitRounds(x: bv16)
    ensures Eight(x) == (x >> 8) ^ Eight(x & 0xFF)
  {
  }

  lemma EntryEight(x: bv16)
    ensures Entry((x & 0xFF) as bv8) == Eight(x & 0xFF)
  {
    assert ((x & 0xFF) as bv8) as bv16 == x & 0xFF;
    EightRounds(x & 0xFF);
  }

  /** The table step written over the xored register `x`. */
  lemma TableStep(x: bv16)
    ensures (x >> 8) ^ Entry((x & 0xFF) as bv8) == Eight(x)
  {
    EntryEight(x);
    SplitRounds(x);
  }

  /** Xoring a byte into the register leaves its high byte alone. */
  lemma IndexParts(crc: bv16, d: bv8, x: bv16)
    requires x == crc ^ d as bv16
    ensures Index(crc, d) == (x & 0xFF) as bv8 && crc >> 8 == x >> 8
  {
  }

  lemma ByteStepEntry(crc: bv16, d: bv8)
    ensures ByteStep(crc, d) == (crc >> 8) ^ Entry(Index(crc, d))
  {
  }

  lemma ByteStepXored(crc: bv16, d: bv8, x: bv16)
    requires x == crc ^ d as bv16
    ensures ByteStep(crc, d) == (x >> 8) ^ Entry((x & 0xFF) as bv8)
  {
    ByteStepEntry(crc, d);
    IndexParts(crc, d, x);
  }

  /** Looking up the table is the same as running the eight rounds
      bit by bit: the table-driven step equals the bit-serial step. */
  lemma StepMatchesBitStep(crc: bv16, c: char)
    ensures Step(crc, c) == BitStep(crc, c)
  {
    var x := crc ^ LowByte(c) as bv16;
    ByteStepXored(crc, LowByte(c), x);
    TableStep(x);
    EightRounds(x);
  }

  /** The table-driven checksum agrees with the bit-serial CRC-16/ARC on
      every input. */
  lemma {:induction false} FoldMatchesBitFold(crc: bv16, s: string)
    ensures Fold(crc, s) == BitFold(crc, s)
    decreases |s|
  {
    if s != [] {
      StepMatchesBitStep(crc, s[0]);
      FoldMatchesBitFold(Step(crc, s[0]), s[1..]);
    }
  }

  /** Checksumming a concatenation continues the same fold from the
      checksum of the first part. */
  lemma {:induction false} FoldAppend(crc: bv16, a: string, b: string)
    ensures Fold(crc, a + b) == Fold(Fold(crc, a), b)
    decreases |a|
  {
    if a == [] {
      assert a + b == b;
    } else {
      assert (a + b)[0] == a[0];
      assert (a + b)[1..] == a[1..] + b;
      FoldAppend(Step(crc, a[0]), a[1..], b);
    }
  }

  /** A few well-known entries of the CRC-16/ARC table. */
  lemma TableEntries()
    ensures Entry(0) == 0x0000 && Entry(1) == 0xC0C1 && Entry(2) == 0xC181
    ensures Entry(128) == 0xA001 && Entry(255) == 0x4040
  {
  }

  /** `TelegramParser.crc16`: the table-driven fold started from 0, which is
      the bit-serial CRC-16/ARC of `s`. */
  function Checksum(s: string): (r: bv16)
    ensures r == BitFold(0, s)
  {
    FoldMatchesBitFold(0, s);
    Fold(0, s)
  }

  /** The checksum of a concatenation continues from the checksum of the
      first part, and the empty string checksums to 0. */
  lemma ChecksumAppend(a: string, b: string)
    ensures Checksum(a + b) == Fold(Checksum(a), b)
    ensures Checksum([]) == 0
  {
    FoldAppend(0, a, b);
  }
}

=== FILE: Framing.dfy ===
/** `SerialReader._read_telegram`: assembling one telegram from the lines a
    serial port delivers. The port is a finite sequence of read events;
    each is the result of one `read_until(b'\n')`, or the exception it
    raised. */
module Framing {
  import opened Wrappers

  type Byte = b: int | 0 <= b < 256

  /** `/`, which starts the first line of a telegram. */
  const Slash: Byte := 0x2F
  /** `!`, which starts its last line. */
  const Bang: Byte := 0x21

  /** One read from the port. `Line` is what `read_until` returned, with
      the number of bytes `in_waiting` reports right after it; an empty
      `Line` is a read that timed out. `Fault` is a `SerialException`
      carrying `errno`, from opening the port or from reading it. */
  datatype ReadEvent =
    | Line(bytes: seq<Byte>, inWaiting: nat)
    | Fault(errno: int)

  /** An event after which reading cannot go on. */
  predicate Terminal(ev: ReadEvent)
  {
    ev.Fault? || ev.bytes == []
  }

  predicate StartsWith(bytes: seq<Byte>, b: Byte)
  {
    |bytes| > 0 && bytes[0] == b
  }

  /** `telegram is None` (`Hunting`) or the bytes assembled so far. */
  datatype Framer = Hunting | Assembling(telegram: seq<Byte>)

  /** Assembled bytes always start with the `/` line. */
  predicate Valid(f: Framer)
  {
    f.Assembling? ==> StartsWith(f.telegram, Slash)
  }

  /** How a read ends: `TimeoutError`, a `SerialException`, or the bytes
      of one complete telegram. A timeout carries no bytes: nothing
      partial is ever returned. */
  datatype Outcome = Timeout | Faulted(errno: int) | Delivered(telegram: seq<Byte>)

  datatype FeedResult = Continue(framer: Framer) | Stop(outcome: Outcome)

  /** One turn of the reading loop. With `onlyLast`, a telegram completed
      while more bytes are already waiting is dropped: a newer one follows. */
  function Feed(f: Framer, ev: ReadEvent, onlyLast: bool): (r: FeedResult)
    ensures Terminal(ev) ==> r.Stop? && !r.outcome.Delivered?
    ensures Valid(f) && r.Continue? ==> Valid(r.framer)
    ensures r.Stop? && r.outcome.Delivered? ==>
      f.Assembling? && StartsWith(ev.bytes, Bang) && !(onlyLast && ev.inWaiting > 0)
      && r.outcome.telegram == f.telegram + ev.bytes
  {
    match ev
    case Fault(e) => Stop(Faulted(e))
    case Line(bytes, waiting) =>
      if bytes == [] then Stop(Timeout)
      else match f
        case Hunting =>
          if bytes[0] == Slash then Continue(Assembling(bytes)) else Continue(Hunting)
        case Assembling(telegram) =>
          if bytes[0] == Bang then
            if onlyLast && waiting > 0 then Continue(Hunting) else Stop(Delivered(telegram + bytes))
          else Continue(Assembling(telegram + bytes))
  }

  /** Reading until the loop stops or the events run out. */
  datatype FrameResult =
    | Pending(framer: Framer)
    | Finished(outcome: Outcome, consumed: nat)

  /** The reading loop over `events`, from framer state `f`. `Finished`
      says how many events it took. */
  function Run(f: Framer, events: seq<ReadEvent>, onlyLast: bool): (r: FrameResult)
    ensures r.Pending? ==> forall i | 0 <= i < |events| :: !Terminal(events[i])
    ensures r.Pending? && Valid(f) ==> Valid(r.framer)
    ensures r.Finished? ==> 0 < r.consumed <= |events|
    ensures r.Finished? ==> forall i | 0 <= i < r.consumed - 1 :: !Terminal(events[i])
    ensures r.Finished? && r.outcome == Timeout ==> events[r.consumed - 1].Line? && events[r.consumed - 1].bytes == []
    ensures r.Finished? && r.outcome.Faulted? ==> events[r.consumed - 1] == Fault(r.outcome.errno)
    ensures r.Finished? && r.outcome.Delivered? ==>
      var last := events[r.consumed - 1];
      && last.Line? && StartsWith(last.bytes, Bang) && !(onlyLast && last.inWaiting > 0)
      && |last.bytes| <= |r.outcome.telegram|
      && r.outcome.telegram[|r.outcome.telegram| - |last.bytes|..] == last.bytes
      && (Valid(f) ==> StartsWith(r.outcome.telegram, Slash))
    decreases |events|
  {
    if events == [] then Pending(f)
    else
      match Feed(f, events[0], onlyLast)
      case Stop(o) => Finished(o, 1)
      case Continue(g) =>
        match Run(g, events[1..], onlyLast)
        case Pending(h) => Pending(h)
        case Finished(o, n) => Finished(o, n + 1)
  }

  /** `_read_telegram(only_last)`: the loop started with no telegram. */
  function ReadTelegram(events: seq<ReadEvent>, onlyLast: bool): (r: FrameResult)
    ensures r.Finished? && r.outcome.Delivered? ==> StartsWith(r.outcome.telegram, Slash)
    ensures r.Finished? && r.outcome.Delivered? ==>
      0 < r.consumed <= |events| && events[r.consumed - 1].Line? && StartsWith(events[r.consumed - 1].bytes, Bang)
  {
    Run(Hunting, events, onlyLast)
  }

  /** `telegram.decode('ascii')`: `None` where a byte is not ASCII and the
      source raises `UnicodeDecodeError`. */
  function DecodeAscii(bytes: seq<Byte>): (r: Option<string>)
    ensures r.Some? <==> forall i | 0 <= i < |bytes| :: bytes[i] < 128
    ensures r.Some? ==> |r.value| == |bytes| && forall i | 0 <= i < |bytes| :: r.value[i] as int == bytes[i]
  {
    if bytes == [] then Some([])
    else if bytes[0] >= 128 then None
    else match DecodeAscii(bytes[1..])
      case None => None
      case Some(rest) => Some([bytes[0] as char] + rest)
  }

  // ----- properties -----

  /** Reading `a` and then `b` is reading `a + b`: the loop resumes in the
      state `a` left it in. */
  lemma {:induction false} RunAppend(f: Framer, a: seq<ReadEvent>, b: seq<ReadEvent>, onlyLast: bool)
    ensures Run(f, a + b, onlyLast) == match Run(f, a, onlyLast)
      case Finished(o, n) => Finished(o, n)
      case Pending(g) =>
        match Run(g, b, onlyLast)
        case Pending(h) => Pending(h)
        case Finished(o, n) => Finished(o, |a| + n)
    decreases |a|
  {
    if a == [] {
      assert a + b == b;
    } else {
      assert (a + b)[0] == a[0];
      assert (a + b)[1..] == a[1..] + b;
      match Feed(f, a[0], onlyLast)
      case Stop(o) =>
      case Continue(g) => RunAppend(g, a[1..], b, onlyLast);
    }
  }

  /** Lines that do not start a telegram. */
  predicate Noise(events: seq<ReadEvent>)
  {
    forall i | 0 <= i < |events| :: events[i].Line? && events[i].bytes != [] && events[i].bytes[0] != Slash
  }

  /** Lines inside a telegram, none of them its last. */
  predicate Inner(events: seq<ReadEvent>)
  {
    forall i | 0 <= i < |events| :: events[i].Line? && events[i].bytes != [] && events[i].bytes[0] != Bang
  }

  /** The bytes of a run of lines, joined. */
  function Joined(events: seq<ReadEvent>): seq<Byte>
    requires forall i | 0 <= i < |events| :: events[i].Line?
  {
    if events == [] then [] else events[0].bytes + Joined(events[1..])
  }

  /** Before the first `/` line, lines are skipped. */
  lemma {:induction false} NoiseSkipped(events: seq<ReadEvent>, onlyLast: bool)
    requires Noise(events)
    ensures Run(Hunting, events, onlyLast) == Pending(Hunting)
    decreases |events|
  {
    if events != [] {
      NoiseSkipped(events[1..], onlyLast);
    }
  }

  /** Inside a telegram, lines are appended. */
  lemma {:induction false} InnerAppended(acc: seq<Byte>, events: seq<ReadEvent>, onlyLast: bool)
    requires Inner(events)
    ensures Run(Assembling(acc), events, onlyLast) == Pending(Assembling(acc + Joined(events)))
    decreases |events|
  {
    if events == [] {
      assert acc + [] == acc;
    } else {
      InnerAppended(acc + events[0].bytes, events[1..], onlyLast);
      assert acc + events[0].bytes + Joined(events[1..]) == acc + Joined(events);
    }
  }

  lemma Regroup(a: seq<ReadEvent>, b: seq<ReadEvent>, c: seq<ReadEvent>, d: seq<ReadEvent>)
    ensures a + b + c + d == a + (b + (c + d))
    ensures a + b + c + d == (a + (b + c)) + d
  {
  }

  /** After the `/` line, inner lines and a `!` line with nothing newer
      waiting complete the telegram. */
  lemma AssembleRest(acc: seq<Byte>, inner: seq<ReadEvent>, last: seq<Byte>, waiting: nat, onlyLast: bool)
    requires Inner(inner) && StartsWith(last, Bang)
    requires !onlyLast || waiting == 0
    ensures Run(Assembling(acc), inner + [Line(last, waiting)], onlyLast)
      == Finished(Delivered(acc + Joined(inner) + last), |inner| + 1)
  {
    InnerAppended(acc, inner, onlyLast);
    RunAppend(Assembling(acc), inner, [Line(last, waiting)], onlyLast);
  }

  /** A `/` line starts assembling. */
  lemma StartLine(first: seq<Byte>, waiting: nat, rest: seq<ReadEvent>, onlyLast: bool)
    requires StartsWith(first, Slash)
    ensures Run(Hunting, [Line(first, waiting)] + rest, onlyLast) == match Run(Assembling(first), rest, onlyLast)
      case Pending(h) => Pending(h)
      case Finished(o, n) => Finished(o, n + 1)
  {
    var events := [Line(first, waiting)] + rest;
    assert events[0] == Line(first, waiting) && events[1..] == rest;
  }

  /** A `/` line, inner lines and a `!` line after noise assemble into
      exactly those lines, when nothing newer is waiting. */
  lemma FrameDelivered(noise: seq<ReadEvent>, first: seq<Byte>, w0: nat, inner: seq<ReadEvent>, last: seq<Byte>,
                       waiting: nat, onlyLast: bool)
    requires Noise(noise) && Inner(inner)
    requires StartsWith(first, Slash) && StartsWith(last, Bang)
    requires !onlyLast || waiting == 0
    ensures Run(Hunting, noise + [Line(first, w0)] + inner + [Line(last, waiting)], onlyLast)
      == Finished(Delivered(first + Joined(inner) + last), |noise| + |inner| + 2)
  {
    var frame := [Line(first, w0)] + (inner + [Line(last, waiting)]);
    FrameFromSlash(first, w0, inner, last, waiting, onlyLast);
    AfterNoise(noise, frame, onlyLast);
    Regroup(noise, [Line(first, w0)], inner, [Line(last, waiting)]);
  }

  lemma FrameFromSlash(first: seq<Byte>, w0: nat, inner: seq<ReadEvent>, last: seq<Byte>, waiting: nat, onlyLast: bool)
    requires Inner(inner)
    requires StartsWith(first, Slash) && StartsWith(last, Bang)
    requires !onlyLast || waiting == 0
    ensures Run(Hunting, [Line(first, w0)] + (inner + [Line(last, waiting)]), onlyLast)
      == Finished(Delivered(first + Joined(inner) + last), |inner| + 2)
  {
    AssembleRest(first, inner, last, waiting, onlyLast);
    StartLine(first, w0, inner + [Line(last, waiting)], onlyLast);
  }

  lemma AfterNoise(noise: seq<ReadEvent>, frame: seq<ReadEvent>, onlyLast: bool)
    requires Noise(noise)
    ensures Run(Hunting, noise + frame, onlyLast) == match Run(Hunting, frame, onlyLast)
      case Pending(h) => Pending(h)
      case Finished(o, n) => Finished(o, |noise| + n)
  {
    NoiseSkipped(noise, onlyLast);
    RunAppend(Hunting, noise, frame, onlyLast);
  }

  /** With `only_last`, a telegram completed while bytes are still waiting
      is thrown away and reading starts over: the newest telegram wins. */
  lemma NewestWins(first: seq<Byte>, w0: nat, inner: seq<ReadEvent>, last: seq<Byte>, waiting: nat, rest: seq<ReadEvent>)
    requires Inner(inner) && StartsWith(first, Slash) && StartsWith(last, Bang) && waiting > 0
    ensures Run(Hunting, [Line(first, w0)] + inner + [Line(last, waiting)] + rest, true)
      == match Run(Hunting, rest, true)
        case Pending(h) => Pending(h)
        case Finished(o, n) => Finished(o, |inner| + 2 + n)
  {
    var stale := [Line(first, w0)] + (inner + [Line(last, waiting)]);
    StaleDropped(first, w0, inner, last, waiting);
    RunAppend(Hunting, stale, rest, true);
    Regroup([Line(first, w0)], inner, [Line(last, waiting)], rest);
    assert [Line(first, w0)] + inner + [Line(last, waiting)] + rest == stale + rest;
  }

  /** A telegram completed with bytes still waiting leaves the loop hunting
      again. */
  lemma StaleDropped(first: seq<Byte>, w0: nat, inner: seq<ReadEvent>, last: seq<Byte>, waiting: nat)
    requires Inner(inner) && StartsWith(first, Slash) && StartsWith(last, Bang) && waiting > 0
    ensures Run(Hunting, [Line(first, w0)] + (inner + [Line(last, waiting)]), true) == Pending(Hunting)
  {
    var tail := inner + [Line(last, waiting)];
    InnerAppended(first, inner, true);
    RunAppend(Assembling(first), inner, [Line(last, waiting)], true);
    assert Run(Assembling(first), tail, true) == Pending(Hunting);
    StartLine(first, w0, tail, true);
  }

  /** Two telegrams already buffered: with `only_last` the older one is
      dropped and the newer one delivered. */
  lemma OlderDropped(first1: seq<Byte>, w1: nat, inner1: seq<ReadEvent>, last1: seq<Byte>, waiting1: nat,
                     first2: seq<Byte>, w2: nat, inner2: seq<ReadEvent>, last2: seq<Byte>)
    requires Inner(inner1) && StartsWith(first1, Slash) && StartsWith(last1, Bang) && waiting1 > 0
    requires Inner(inner2) && StartsWith(first2, Slash) && StartsWith(last2, Bang)
    ensures Run(Hunting, [Line(first1, w1)] + inner1 + [Line(last1, waiting1)]
                         + ([Line(first2, w2)] + (inner2 + [Line(last2, 0)])), true)
      == Finished(Delivered(first2 + Joined(inner2) + last2), |inner1| + |inner2| + 4)
  {
    var newer := [Line(first2, w2)] + (inner2 + [Line(last2, 0)]);
    var t := first2 + Joined(inner2) + last2;
    assert Run(Hunting, newer, true) == Finished(Delivered(t), |inner2| + 2) by {
      FrameFromSlash(first2, w2, inner2, last2, 0, true);
    }
    NewestWins(first1, w1, inner1, last1, waiting1, newer);
  }

  /** Line `j` is the `/` line of telegram `t`, line `n - 1` is the `!` line
      that ends it, and every line between them is an inner line. */
  predicate FrameAt(events: seq<ReadEvent>, j: nat, n: nat, t: seq<Byte>)
  {
    && j + 1 < n <= |events|
    && events[j].Line? && StartsWith(events[j].bytes, Slash)
    && Inner(events[j + 1..n - 1])
    && events[n - 1].Line? && StartsWith(events[n - 1].bytes, Bang)
    && t == events[j].bytes + Joined(events[j + 1..n - 1]) + events[n - 1].bytes
  }

  /** A frame found after the first event is a frame of the whole. */
  lemma FrameShift(events: seq<ReadEvent>, j: nat, n: nat, t: seq<Byte>)
    requires |events| > 0 && FrameAt(events[1..], j, n, t)
    ensures FrameAt(events, j + 1, n + 1, t)
  {
    assert events[1..][j + 1..n - 1] == events[j + 2..n];
  }

  /** Whatever the loop delivers from the start is one `/` line, the inner
      lines after it and the first `!` line after those: never a telegram
      that spans a dropped one or skips an earlier `!`. */
  lemma DeliveredShape(events: seq<ReadEvent>, onlyLast: bool)
    ensures var r := Run(Hunting, events, onlyLast);
      r.Finished? && r.outcome.Delivered? ==> exists j :: FrameAt(events, j, r.consumed, r.outcome.telegram)
  {
    var r := Run(Hunting, events, onlyLast);
    if r.Finished? && r.outcome.Delivered? {
      RunDelivers(Hunting, events, onlyLast);
      var j := HuntingShape(events, onlyLast, r.outcome.telegram, r.consumed);
    }
  }

  /** The loop from `f` stops at event `n - 1`, delivering `t`. */
  ghost predicate DeliversAt(f: Framer, events: seq<ReadEvent>, onlyLast: bool, t: seq<Byte>, n: nat)
    decreases |events|
  {
    && 0 < n <= |events|
    && match Feed(f, events[0], onlyLast)
      case Stop(o) => o == Delivered(t) && n == 1
      case Continue(g) => n > 1 && DeliversAt(g, events[1..], onlyLast, t, n - 1)
  }

  lemma {:induction false} RunDelivers(f: Framer, events: seq<ReadEvent>, onlyLast: bool)
    ensures var r := Run(f, events, onlyLast);
      r.Finished? && r.outcome.Delivered? ==> DeliversAt(f, events, onlyLast, r.outcome.telegram, r.consumed)
    decreases |events|
  {
    if events != [] {
      match Feed(f, events[0], onlyLast)
      case Stop(o) =>
        assert Run(f, events, onlyLast) == Finished(o, 1);
      case Continue(g) =>
        var r := Run(g, events[1..], onlyLast);
        RunDelivers(g, events[1..], onlyLast);
        if r.Finished? {
          assert Run(f, events, onlyLast) == Finished(r.outcome, r.consumed + 1);
          if r.outcome.Delivered? {
            assert DeliversAt(f, events, onlyLast, r.outcome.telegram, r.consumed + 1);
          }
        } else {
          assert Run(f, events, onlyLast) == r;
        }
    }
  }

  lemma {:induction false} HuntingShape(events: seq<ReadEvent>, onlyLast: bool, t: seq<Byte>, n: nat) returns (j: nat)
    requires DeliversAt(Hunting, events, onlyLast, t, n)
    ensures FrameAt(events, j, n, t)
    decreases |events|, 1
  {
    var e := events[0];
    match Feed(Hunting, e, onlyLast)
    case Stop(o) =>
      assert false;
    case Continue(g) =>
      if g.Assembling? {
        var s := AssemblingShape(e.bytes, events[1..], onlyLast, t, n - 1);
        if s >= 0 {
          FrameShift(events, s, n - 1, t);
          j := s + 1;
        } else {
          FrameFirst(events, n, t);
          j := 0;
        }
      } else {
        var s := HuntingShape(events[1..], onlyLast, t, n - 1);
        FrameShift(events, s, n - 1, t);
        j := s + 1;
      }
  }

  /** A `/` line followed by the inner lines and the `!` line of `t`. */
  lemma FrameFirst(events: seq<ReadEvent>, n: nat, t: seq<Byte>)
    requires 1 < n <= |events| && events[0].Line? && StartsWith(events[0].bytes, Slash)
    requires events[n - 1].Line? && StartsWith(events[n - 1].bytes, Bang)
    requires Inner(events[1..][..n - 2])
    requires t == events[0].bytes + Joined(events[1..][..n - 2]) + events[1..][n - 2].bytes
    ensures FrameAt(events, 0, n, t)
  {
    assert events[1..][..n - 2] == events[1..n - 1];
  }

  lemma {:induction false} AssemblingShape(acc: seq<Byte>, events: seq<ReadEvent>, onlyLast: bool, t: seq<Byte>, n: nat)
    returns (j: int)
    requires DeliversAt(Assembling(acc), events, onlyLast, t, n)
    ensures j < 0 ==>
      && Inner(events[..n - 1]) && events[n - 1].Line? && StartsWith(events[n - 1].bytes, Bang)
      && t == acc + Joined(events[..n - 1]) + events[n - 1].bytes
    ensures j >= 0 ==> FrameAt(events, j, n, t)
    decreases |events|, 0
  {
    var e := events[0];
    match Feed(Assembling(acc), e, onlyLast)
    case Stop(o) =>
      assert events[..0] == [];
      j := -1;
    case Continue(g) =>
      if g.Hunting? {
        var s := HuntingShape(events[1..], onlyLast, t, n - 1);
        FrameShift(events, s, n - 1, t);
        j := s + 1;
      } else {
        var s := AssemblingShape(acc + e.bytes, events[1..], onlyLast, t, n - 1);
        if s >= 0 {
          FrameShift(events, s, n - 1, t);
          j := s + 1;
        } else {
          InnerCons(events, n - 1);
          j := -1;
        }
      }
  }

  /** An inner line followed by inner lines. */
  lemma InnerCons(events: seq<ReadEvent>, k: nat)
    requires 0 < k <= |events|
    requires events[0].Line? && events[0].bytes != [] && events[0].bytes[0] != Bang
    requires Inner(events[1..][..k - 1])
    ensures Inner(events[..k])
    ensures Joined(events[..k]) == events[0].bytes + Joined(events[1..][..k - 1])
  {
    assert events[..k][1..] == events[1..][..k - 1];
  }

  /** An empty read ends the read with a timeout wherever it comes, even
      in the middle of a telegram. */
  lemma TimeoutMidFrame(before: seq<ReadEvent>, waiting: nat, after: seq<ReadEvent>, onlyLast: bool)
    requires Run(Hunting, before, onlyLast).Pending?
    ensures Run(Hunting, before + [Line([], waiting)] + after, onlyLast) == Finished(Timeout, |before| + 1)
  {
    RunAppend(Hunting, before, [Line([], waiting)] + after, onlyLast);
    assert before + [Line([], waiting)] + after == before + ([Line([], waiting)] + after);
  }
}

=== FILE: HexInt.dfy ===
/** Python's `int(text, 16)` on the checksum trailer, `hex()` on the table
    entries, and the four upper-case hex digits a meter sends after `!`. */
module HexInt {
  import opened Wrappers
  import opened Text

  /** The whitespace `int()` skips around ASCII text: C's `isspace`, that
      is space, `\t`, `\n`, `\v`, `\f` and `\r`. Unlike `str.strip()`, it
      does not skip the separators U+001C to U+001F. */
  const IntSpace: set<char> := {' ', '\t', '\n', '\r', '\U{0B}', '\U{0C}'}

  predicate IsHexDigit(c: char)
  {
    ('0' <= c <= '9') || ('a' <= c <= 'f') || ('A' <= c <= 'F')
  }

  predicate AllHexDigits(s: string)
  {
    forall i | 0 <= i < |s| :: IsHexDigit(s[i])
  }

  function DigitValue(c: char): (v: nat)
    requires IsHexDigit(c)
    ensures v < 16
  {
    if '0' <= c <= '9' then c as int - '0' as int
    else if 'a' <= c <= 'f' then c as int - 'a' as int + 10
    else c as int - 'A' as int + 10
  }

  /** The number a string of hex digits denotes, most significant digit first. */
  function Value(ds: string): nat
    requires AllHexDigits(ds)
  {
    if ds == [] then 0 else Value(ds[..|ds| - 1]) * 16 + DigitValue(ds[|ds| - 1])
  }

  /** Python's digit grouping: hex digits, single underscores only between
      two digits. */
  predicate Grouped(v: string)
  {
    && |v| > 0
    && IsHexDigit(v[0])
    && IsHexDigit(v[|v| - 1])
    && (forall i | 0 <= i < |v| :: IsHexDigit(v[i]) || v[i] == '_')
    && NoDoubleUnderscore(v)
  }

  predicate NoDoubleUnderscore(v: string)
  {
    |v| < 2 || (!(v[0] == '_' && v[1] == '_') && NoDoubleUnderscore(v[1..]))
  }

  /** The digits of `v` with the grouping underscores dropped. */
  function DropUnderscores(v: string): (r: string)
    requires forall i | 0 <= i < |v| :: IsHexDigit(v[i]) || v[i] == '_'
    ensures AllHexDigits(r)
    ensures AllHexDigits(v) ==> r == v
  {
    if v == [] then []
    else if v[0] == '_' then DropUnderscores(v[1..])
    else [v[0]] + DropUnderscores(v[1..])
  }

  /** `u` without the optional base prefix `0x`/`0X`; one underscore may
      follow the prefix. */
  function AfterPrefix(u: string): (v: string)
    ensures |v| <= |u| && v == u[|u| - |v|..]
  {
    if |u| >= 2 && u[0] == '0' && (u[1] == 'x' || u[1] == 'X') then
      (if |u| > 2 && u[2] == '_' then u[3..] else u[2..])
    else u
  }

  /** The value of grouped digits; `None` for text that is not grouped digits. */
  function GroupedValue(v: string): Option<nat>
  {
    if Grouped(v) then Some(Value(DropUnderscores(v))) else None
  }

  /** The magnitude after the optional base prefix. */
  function Magnitude(u: string): Option<nat>
  {
    GroupedValue(AfterPrefix(u))
  }

  /** The optional sign, then the magnitude. */
  function Signed(t: string): Option<int>
  {
    if t == [] then None
    else
      var u := if t[0] == '-' || t[0] == '+' then t[1..] else t;
      match Magnitude(u)
      case None => None
      case Some(n) =>
        var m: int := n;
        Some(if t[0] == '-' then -m else m)
  }

  /** `int(text, 16)`: surrounding whitespace, an optional sign, an optional
      `0x` prefix, then grouped hex digits; `None` where Python raises
      `ValueError`. */
  function ParseHex(text: string): (r: Option<int>)
    ensures (forall i | 0 <= i < |text| :: text[i] in IntSpace) ==> r.None?
    ensures r.Some? ==> exists i | 0 <= i < |text| :: IsHexDigit(text[i])
  {
    var t := Strip(text, IntSpace);
    StripFrom(text, IntSpace);
    var r := Signed(t);
    if r.Some? then
      SignedHasDigit(t);
      r
    else r
  }

  /** Every character `strip(chars)` keeps comes from the text. */
  lemma StripFrom(s: string, drop: set<char>)
    ensures forall j | 0 <= j < |Strip(s, drop)| :: Strip(s, drop)[j] in s
  {
    var k := StripSlice(s, drop);
    forall j | 0 <= j < |Strip(s, drop)|
      ensures Strip(s, drop)[j] in s
    {
      assert Strip(s, drop)[j] == s[k + j];
    }
  }

  /** A number has at least one digit. */
  lemma SignedHasDigit(t: string)
    requires Signed(t).Some?
    ensures exists i | 0 <= i < |t| :: IsHexDigit(t[i])
  {
    var u := if t[0] == '-' || t[0] == '+' then t[1..] else t;
    var v := AfterPrefix(u);
    assert Grouped(v);
    assert v[0] == t[|t| - |v|];
  }

  // ----- formatting -----

  /** The hex digit for `d`, its letters upper-case when `upper` holds. */
  function Digit(d: nat, upper: bool): (c: char)
    requires d < 16
    ensures IsHexDigit(c) && DigitValue(c) == d
    ensures d >= 10 ==> (upper <==> 'A' <= c <= 'F')
  {
    if d < 10 then ('0' as int + d) as char
    else if upper then ('A' as int + d - 10) as char
    else ('a' as int + d - 10) as char
  }

  /** The lower-case hex digits of `n` without leading zeros, as `hex()`
      writes them after its prefix. */
  function LowerHex(n: nat): (r: string)
    ensures |r| > 0 && AllHexDigits(r) && Value(r) == n
    ensures |r| > 1 ==> r[0] != '0'
    ensures forall i | 0 <= i < |r| :: !('A' <= r[i] <= 'F')
  {
    if n < 16 then [Digit(n, false)]
    else
      var r := LowerHex(n / 16) + [Digit(n % 16, false)];
      assert r[..|r| - 1] == LowerHex(n / 16);
      r
  }

  /** `hex(n)` for a non-negative `n`. */
  function HexLiteral(n: nat): (r: string)
    ensures |r| > 2 && r[..2] == "0x"
    ensures AllHexDigits(r[2..]) && Value(r[2..]) == n
    ensures |r| > 3 ==> r[2] != '0'
    ensures forall i | 2 <= i < |r| :: !('A' <= r[i] <= 'F')
  {
    var r := "0x" + LowerHex(n);
    assert r[2..] == LowerHex(n);
    r
  }

  /** The four upper-case hex digits of a 16-bit checksum, most significant
      first, as a meter writes it after the `!` end marker. */
  function Hex4(n: nat): (r: string)
    requires n < 0x10000
    ensures |r| == 4 && AllHexDigits(r)
  {
    [Digit(n / 16 / 16 / 16, true), Digit(n / 16 / 16 % 16, true), Digit(n / 16 % 16, true), Digit(n % 16, true)]
  }

  // ----- properties -----

  lemma DivMod16(a: nat)
    ensures a / 16 * 16 + a % 16 == a
  {
  }

  /** Appending a digit scales the value by the base. */
  lemma ValueSnoc(ds: string, c: char)
    requires AllHexDigits(ds) && IsHexDigit(c)
    ensures AllHexDigits(ds + [c]) && Value(ds + [c]) == Value(ds) * 16 + DigitValue(c)
  {
    assert (ds + [c])[..|ds|] == ds;
  }

  lemma Hex4Value(n: nat)
    requires n < 0x10000
    ensures Value(Hex4(n)) == n
  {
    var r := Hex4(n);
    assert r == [r[0]] + [r[1]] + [r[2]] + [r[3]];
    assert Value([r[0]]) == n / 16 / 16 / 16 by {
      assert [r[0]] == [] + [r[0]];
      ValueSnoc([], r[0]);
    }
    ValueSnoc([r[0]], r[1]);
    DivMod16(n / 16 / 16);
    ValueSnoc([r[0]] + [r[1]], r[2]);
    DivMod16(n / 16);
    ValueSnoc([r[0]] + [r[1]] + [r[2]], r[3]);
    DivMod16(n);
  }

  lemma HexNotSpace(c: char)
    requires IsHexDigit(c)
    ensures c !in Whitespace && c !in IntSpace
  {
  }

  lemma NoWhitespace(s: string)
    requires AllHexDigits(s)
    ensures Strip(s, IntSpace) == s
  {
    if |s| > 0 {
      HexNotSpace(s[0]);
      HexNotSpace(s[|s| - 1]);
    }
    StripUntouched(s, IntSpace);
  }

  lemma {:induction false} DigitsGrouped(s: string)
    requires |s| > 0 && AllHexDigits(s)
    ensures Grouped(s) && DropUnderscores(s) == s
  {
    if |s| >= 2 {
      assert IsHexDigit(s[0]);
      DigitsGrouped(s[1..]);
    }
  }

  lemma NoPrefix(s: string)
    requires |s| > 0 && AllHexDigits(s)
    ensures AfterPrefix(s) == s
  {
    if |s| >= 2 {
      assert IsHexDigit(s[1]);
    }
  }

  lemma GroupedDigitsValue(s: string)
    requires |s| > 0 && AllHexDigits(s)
    ensures GroupedValue(s) == Some(Value(s))
  {
    DigitsGrouped(s);
  }

  lemma MagnitudeDigits(s: string)
    requires |s| > 0 && AllHexDigits(s)
    ensures Magnitude(s) == Some(Value(s))
  {
    NoPrefix(s);
    GroupedDigitsValue(s);
  }

  /** A non-empty run of hex digits parses to the number it denotes. */
  lemma ParseHexDigits(s: string)
    requires |s| > 0 && AllHexDigits(s)
    ensures ParseHex(s) == Some(Value(s))
  {
    NoWhitespace(s);
    SignedDigits(s);
  }

  lemma SignedDigits(s: string)
    requires |s| > 0 && AllHexDigits(s)
    ensures Signed(s) == Some(Value(s))
  {
    assert IsHexDigit(s[0]);
    MagnitudeDigits(s);
  }

  /** Reading back the four digits a meter sends gives the checksum. */
  lemma Hex4RoundTrip(n: nat)
    requires n < 0x10000
    ensures ParseHex(Hex4(n)) == Some(n)
  {
    Hex4Value(n);
    ParseHexDigits(Hex4(n));
  }

  lemma LiteralStrip(n: nat)
    ensures Strip(HexLiteral(n), IntSpace) == HexLiteral(n)
  {
    var h := HexLiteral(n);
    assert h[0] == h[..2][0] == '0';
    assert h[|h| - 1] == h[2..][|h| - 3];
    HexNotSpace(h[|h| - 1]);
    assert h[0] !in IntSpace && h[|h| - 1] !in IntSpace;
    StripUntouched(h, IntSpace);
  }

  lemma LiteralMagnitude(n: nat)
    ensures Magnitude(HexLiteral(n)) == Some(n)
  {
    var h := HexLiteral(n);
    var r := h[2..];
    assert IsHexDigit(r[0]);
    assert AfterPrefix(h) == r;
    GroupedDigitsValue(r);
  }

  /** Reading back `hex(n)` gives `n`: storing the table as `hex()` text and
      converting each entry back loses nothing. (For text starting `0x`,
      `int(_, 0)` and `int(_, 16)` read the same number.) */
  lemma HexLiteralRoundTrip(n: nat)
    ensures ParseHex(HexLiteral(n)) == Some(n)
  {
    LiteralStrip(n);
    LiteralMagnitude(n);
  }

  /** A character that is neither a hex digit nor a grouping underscore
      makes grouped digits ill-formed. */
  lemma GroupedRejects(v: string, k: nat)
    requires k < |v| && !IsHexDigit(v[k]) && v[k] != '_'
    ensures GroupedValue(v) == None
  {
  }

  lemma MagnitudeRejects(u: string, j: nat)
    requires j < |u| && !IsHexDigit(u[j]) && u[j] !in {'_', 'x', 'X'}
    ensures Magnitude(u) == None
  {
    var v := AfterPrefix(u);
    var off := |u| - |v|;
    assert off <= j;
    assert v[j - off] == u[j];
    GroupedRejects(v, j - off);
  }

  lemma SignedRejects(t: string, j: nat)
    requires j < |t| && !IsHexDigit(t[j]) && t[j] !in {'_', '+', '-', 'x', 'X'}
    ensures Signed(t) == None
  {
    if t[0] == '-' || t[0] == '+' {
      assert t[1..][j - 1] == t[j];
      MagnitudeRejects(t[1..], j - 1);
    } else {
      MagnitudeRejects(t, j);
    }
  }

  /** Empty text is not a number. */
  lemma ParseHexEmpty()
    ensures ParseHex([]) == None
  {
  }

  /** A character that cannot appear in a hex literal makes the parse fail. */
  lemma ParseHexRejects(text: string, i: nat)
    requires i < |text|
    requires !IsHexDigit(text[i]) && text[i] !in IntSpace
    requires text[i] !in {'_', '+', '-', 'x', 'X'}
    ensures ParseHex(text) == None
  {
    var j := StripKeeps(text, IntSpace, i);
    SignedRejects(Strip(text, IntSpace), j);
  }
}

=== FILE: Obis.dfy ===
/** The catalog of OBIS object identifiers the bridge reads, and the search
    for an identifier's data line in the body of a telegram.

    Every catalog entry is matched by the same shape of pattern: a digit,
    `-`, a digit, `:`, the identifier's fixed code, at least one further
    character of the same line, and the line break `\r\n`. A character of
    the line is any character but `\n`, as for `.` in Python's `re`. */
module Obis {
  import opened Wrappers
  import opened Text

  datatype ObisId =
    | P1MessageTimestamp
    | EquipmentIdentifier
    | ElectricityUsage
    | ElectricityDelivery
    | ElectricityUsedTariff1
    | ElectricityUsedTariff2
    | ElectricityDeliveredTariff1
    | ElectricityDeliveredTariff2
    | VoltageL1
    | VoltageL2
    | VoltageL3
    | CurrentL1
    | CurrentL2
    | CurrentL3
    | ActivePowerL1Positive
    | ActivePowerL2Positive
    | ActivePowerL3Positive
    | ActivePowerL1Negative
    | ActivePowerL2Negative
    | ActivePowerL3Negative
  {
    /** The fixed `<a>.<b>.<c>` part of the identifier's pattern. */
    function Code(): string
    {
      match this
      case P1MessageTimestamp => "1.0.0"
      case EquipmentIdentifier => "96.1.1"
      case ElectricityUsage => "1.7.0"
      case ElectricityDelivery => "2.7.0"
      case ElectricityUsedTariff1 => "1.8.1"
      case ElectricityUsedTariff2 => "1.8.2"
      case ElectricityDeliveredTariff1 => "2.8.1"
      case ElectricityDeliveredTariff2 => "2.8.2"
      case VoltageL1 => "32.7.0"
      case VoltageL2 => "52.7.0"
      case VoltageL3 => "72.7.0"
      case CurrentL1 => "31.7.0"
      case CurrentL2 => "51.7.0"
      case CurrentL3 => "71.7.0"
      case ActivePowerL1Positive => "21.7.0"
      case ActivePowerL2Positive => "41.7.0"
      case ActivePowerL3Positive => "61.7.0"
      case ActivePowerL1Negative => "22.7.0"
      case ActivePowerL2Negative => "42.7.0"
      case ActivePowerL3Negative => "62.7.0"
    }
  }

  /** The source declares the catalog `@unique`: no two identifiers share a
      pattern. */
  lemma CodesDistinct(a: ObisId, b: ObisId)
    requires a != b
    ensures a.Code() != b.Code()
  {
  }

  /** Every code is digits separated by dots. */
  lemma CodeChars(id: ObisId)
    ensures |id.Code()| >= 5
    ensures forall i | 0 <= i < |id.Code()| :: IsDigit(id.Code()[i]) || id.Code()[i] == '.'
  {
  }

  /** `\d` on ASCII text. */
  predicate IsDigit(c: char)
  {
    '0' <= c <= '9'
  }

  /** The text after `<m>-<n>:` starts the match at `s`. */
  predicate HeadAt(data: string, code: string, s: nat)
  {
    && s + 4 + |code| <= |data|
    && IsDigit(data[s]) && data[s + 1] == '-' && IsDigit(data[s + 2]) && data[s + 3] == ':'
    && data[s + 4..s + 4 + |code|] == code
  }

  /** `.+?\r\n` matches `data[q..e]`: at least one character other than
      `\n`, then the line break. */
  predicate TailEndsAt(data: string, q: nat, e: nat)
  {
    && q + 3 <= e <= |data|
    && data[e - 2] == '\r' && data[e - 1] == '\n'
    && (forall k | q <= k < e - 2 :: data[k] != '\n')
  }

  /** The pattern of `code` matches `data[s..e]`. */
  predicate Matches(data: string, code: string, s: nat, e: nat)
  {
    HeadAt(data, code, s) && TailEndsAt(data, s + 4 + |code|, e)
  }

  /** A tail match can end in one place only, so the lazy `.+?` and a
      greedy `.+` would agree. */
  lemma TailUnique(data: string, q: nat, e1: nat, e2: nat)
    requires TailEndsAt(data, q, e1) && TailEndsAt(data, q, e2)
    ensures e1 == e2
  {
    assert data[e1 - 1] == '\n' && data[e1 - 2] == '\r';
    assert data[e2 - 1] == '\n' && data[e2 - 2] == '\r';
  }

  /** Once the first `\n` at or after `q` sits at `q + k`, a tail match from
      `q` can only end just after it. */
  lemma TailEndsAfterNewline(data: string, q: nat, k: nat)
    requires q + k < |data| && data[q + k] == '\n'
    requires forall j | q <= j < q + k :: data[j] != '\n'
    ensures forall e: nat | TailEndsAt(data, q, e) :: e == q + k + 1
  {
    forall e: nat | TailEndsAt(data, q, e)
      ensures e == q + k + 1
    {
      assert data[e - 1] == '\n' && data[e - 2] == '\r';
    }
  }

  /** The end of the tail match from `q`: it ends just after the first `\n`
      at or after `q`, when that one is preceded by `\r` and leaves a
      character before it. */
  function TailEnd(data: string, q: nat): (r: Option<nat>)
    ensures r.Some? ==> TailEndsAt(data, q, r.value)
    ensures r.None? ==> forall e: nat :: !TailEndsAt(data, q, e)
  {
    if q > |data| then None
    else
      var rest := data[q..];
      match IndexOf(rest, '\n')
      case None =>
        assert forall e: nat :: !TailEndsAt(data, q, e) by {
          forall e: nat
            ensures !TailEndsAt(data, q, e)
          {
            if q + 3 <= e <= |data| {
              assert rest[e - 1 - q] == data[e - 1];
            }
          }
        }
        None
      case Some(k) =>
        assert rest[k] == data[q + k];
        assert forall j | q <= j < q + k :: data[j] != '\n' by {
          forall j | q <= j < q + k
            ensures data[j] != '\n'
          {
            assert rest[..k][j - q] == data[j];
          }
        }
        TailEndsAfterNewline(data, q, k);
        if k >= 2 && data[q + k - 1] == '\r' then Some(q + k + 1) else None
  }

  /** `re.search` from position `from`: the leftmost start at or after
      `from` whose pattern matches, with the end of that match. */
  function SearchFrom(data: string, code: string, from: nat): (r: Option<(nat, nat)>)
    ensures r.Some? ==> from <= r.value.0 && Matches(data, code, r.value.0, r.value.1)
    ensures r.Some? ==> forall s: nat, e: nat | from <= s < r.value.0 :: !Matches(data, code, s, e)
    ensures r.None? ==> forall s: nat, e: nat | from <= s :: !Matches(data, code, s, e)
    decreases |data| - from
  {
    if from + 4 + |code| > |data| then None
    else
      var tail := if HeadAt(data, code, from) then TailEnd(data, from + 4 + |code|) else None;
      match tail
      case Some(e) => Some((from, e))
      case None =>
        var r := SearchFrom(data, code, from + 1);
        if r.Some? then
          NothingBefore(data, code, from, r.value.0);
          r
        else
          NothingBefore(data, code, from, |data| + 1);
          r
  }

  /** No match starting at `from`, and none from `from + 1` up to `stop`:
      none from `from` up to `stop`. */
  lemma NothingBefore(data: string, code: string, from: nat, stop: nat)
    requires forall e: nat :: !Matches(data, code, from, e)
    requires forall s: nat, e: nat | from + 1 <= s < stop :: !Matches(data, code, s, e)
    ensures forall s: nat, e: nat | from <= s < stop :: !Matches(data, code, s, e)
  {
  }

  /** `re.search(pattern, data)` for the identifier's pattern. */
  function Search(data: string, id: ObisId): (r: Option<(nat, nat)>)
    ensures r.Some? ==> Matches(data, id.Code(), r.value.0, r.value.1)
    ensures r.Some? ==> forall s: nat, e: nat | s < r.value.0 :: !Matches(data, id.Code(), s, e)
    ensures r.None? <==> forall s: nat, e: nat :: !Matches(data, id.Code(), s, e)
  {
    SearchFrom(data, id.Code(), 0)
  }
}

=== FILE: SerialReader.dfy ===
/** `SerialReader`: its byte-size setting, and `read()`, which frames one
    telegram from the port, decodes it as ASCII and parses it. */
module SerialReader {
  import opened Wrappers
  import opened Telegrams
  import opened TelegramParser
  import opened Framing
  import opened Text

  /** `errno.ENOENT`: the serial device does not exist. */
  const ENOENT: int := 2

  /** `serial.SEVENBITS` and `serial.EIGHTBITS`. */
  datatype DataBits = SevenBits | EightBits

  /** `AttributeError("Invalid bytesize argument: Should be 7 or 8")`. */
  datatype ConfigError = InvalidByteSize

  /** `xs[i]` on a Python tuple: a negative index counts from the end;
      `None` where Python raises `IndexError`. */
  function PyIndex<T>(xs: seq<T>, i: int): (r: Option<T>)
    ensures r.Some? <==> -|xs| <= i < |xs|
    ensures r.Some? && 0 <= i ==> r.value == xs[i]
    ensures r.Some? && i < 0 ==> r.value == xs[|xs| + i]
  {
    if 0 <= i < |xs| then Some(xs[i])
    else if -|xs| <= i < 0 then Some(xs[|xs| + i])
    else None
  }

  /** The byte size as `__init__` computes it:
      `(SEVENBITS, EIGHTBITS)[bytesize - 7]`. Negative indexing lets 5
      and 6 through as well: 5 selects seven data bits and 6 eight. */
  function ByteSize(bytesize: int): (r: Result<DataBits, ConfigError>)
    ensures r.Success? <==> 5 <= bytesize <= 8
    ensures r == Success(SevenBits) <==> bytesize == 5 || bytesize == 7
    ensures r == Success(EightBits) <==> bytesize == 6 || bytesize == 8
  {
    match PyIndex([SevenBits, EightBits], bytesize - 7)
    case None => Failure(InvalidByteSize)
    case Some(bits) => Success(bits)
  }

  /** The byte size as the error message describes it: 7 or 8 only. */
  function ByteSizeIntended(bytesize: int): (r: Result<DataBits, ConfigError>)
    ensures r.Success? <==> bytesize == 7 || bytesize == 8
    ensures r == Success(SevenBits) <==> bytesize == 7
    ensures r == Success(EightBits) <==> bytesize == 8
  {
    if bytesize == 7 then Success(SevenBits)
    else if bytesize == 8 then Success(EightBits)
    else Failure(InvalidByteSize)
  }

  /** The two definitions part only at 5 and 6. */
  lemma ByteSizeDiscrepancy(bytesize: int)
    ensures ByteSize(bytesize) != ByteSizeIntended(bytesize) <==> bytesize == 5 || bytesize == 6
  {
  }

  /** What a reader is set up with. Parity is not part of this model. */
  datatype SerialConfig = SerialConfig(port: string, baud: nat, bits: DataBits)

  /** `SerialReader(port, baud, bytesize)`: the byte size indexes the
      tuple, so 5 and 6 are accepted as well. */
  function Configure(port: string, baud: nat, bytesize: int): (r: Result<SerialConfig, ConfigError>)
    ensures r.Success? <==> 5 <= bytesize <= 8
    ensures r.Success? ==> r.value.port == port && r.value.baud == baud
    ensures r.Success? ==> (r.value.bits == SevenBits <==> bytesize == 5 || bytesize == 7)
  {
    match ByteSize(bytesize)
    case Failure(e) => Failure(e)
    case Success(bits) => Success(SerialConfig(port, baud, bits))
  }

  /** `SerialReader(port, baud, bytesize)` with the byte-size check its
      error message describes. */
  function ConfigureIntended(port: string, baud: nat, bytesize: int): (r: Result<SerialConfig, ConfigError>)
    ensures r.Success? <==> bytesize == 7 || bytesize == 8
    ensures r.Success? ==> r.value.port == port && r.value.baud == baud
    ensures r.Success? ==> (r.value.bits == SevenBits <==> bytesize == 7)
  {
    match ByteSizeIntended(bytesize)
    case Failure(e) => Failure(e)
    case Success(bits) => Success(SerialConfig(port, baud, bits))
  }

  /** The defaults the bridge uses: 115200 baud, seven data bits. */
  const DefaultBaud: nat := 115200
  const DefaultByteSize: int := 7

  /** With the defaults the bridge uses, the byte size as written and as
      intended agree. */
  lemma DefaultByteSizeAgrees()
    ensures ByteSize(DefaultByteSize) == ByteSizeIntended(DefaultByteSize) == Success(SevenBits)
    ensures Configure([], DefaultBaud, DefaultByteSize) == ConfigureIntended([], DefaultBaud, DefaultByteSize)
    ensures Configure([], DefaultBaud, DefaultByteSize).Success?
  {
  }

  // ----- read() -----

  /** Why a read raised something other than a timeout or a serial error:
      the telegram was not ASCII, or `parse` raised. */
  datatype ReadFailure = NotAscii | ParseFailed(error: ParseError)

  /** What `read()` returns or raises: a telegram, `None` after a CRC
      mismatch, `TimeoutError`, `SerialException(errno)`, or any other
      exception. */
  datatype ReadOutcome =
    | Ok(telegram: Telegram)
    | CrcFail
    | TimedOut
    | SerialFault(errno: int)
    | Failed(failure: ReadFailure)

  /** `read()` over the port's events: `Reading` when the events run out
      before the read ends (`dsmr.py` would block for more). */
  datatype ReadResult = Reading | Done(outcome: ReadOutcome, consumed: nat)

  /** `telegram.decode('ascii')` and `parse` applied to a delivered
      frame. */
  function Interpret(bytes: seq<Byte>): (r: ReadOutcome)
    ensures r == Failed(NotAscii) <==> DecodeAscii(bytes).None?
    ensures !r.TimedOut? && !r.SerialFault?
    ensures r.Ok? ==>
      var d := r.telegram.data;
      0 < |d| && d[|d| - 1] == '!' && '!' !in d[..|d| - 1]
  {
    match DecodeAscii(bytes)
    case None => Failed(NotAscii)
    case Some(text) =>
      match Parse(text)
      case Parsed(t) => Ok(t)
      case ChecksumMismatch => CrcFail
      case Raised(err) => Failed(ParseFailed(err))
  }

  function Read(events: seq<ReadEvent>): (r: ReadResult)
    ensures r.Reading? <==> Run(Hunting, events, true).Pending?
    ensures r.Done? ==> 0 < r.consumed <= |events|
    ensures r.Done? && r.outcome == TimedOut ==> events[r.consumed - 1].Line? && events[r.consumed - 1].bytes == []
    ensures r.Done? && r.outcome.SerialFault? ==> events[r.consumed - 1] == Fault(r.outcome.errno)
    ensures r.Done? && r.outcome.Ok? ==>
      var d := r.outcome.telegram.data;
      0 < |d| && d[|d| - 1] == '!' && '!' !in d[..|d| - 1]
  {
    match ReadTelegram(events, true)
    case Pending(_) => Reading
    case Finished(Timeout, n) => Done(TimedOut, n)
    case Finished(Faulted(e), n) => Done(SerialFault(e), n)
    case Finished(Delivered(bytes), n) => Done(Interpret(bytes), n)
  }

  // ----- properties -----

  predicate IsAscii(s: string)
  {
    forall i | 0 <= i < |s| :: s[i] as int < 128
  }

  /** The bytes of an ASCII string. */
  function Encode(s: string): (r: seq<Byte>)
    requires IsAscii(s)
    ensures |r| == |s| && forall i | 0 <= i < |s| :: r[i] == s[i] as int
  {
    seq(|s|, i requires 0 <= i < |s| => s[i] as int as Byte)
  }

  /** Decoding the bytes of ASCII text gives the text back. */
  lemma DecodeEncode(s: string)
    requires IsAscii(s)
    ensures DecodeAscii(Encode(s)) == Some(s)
  {
    var d := DecodeAscii(Encode(s)).value;
    assert |d| == |s|;
    forall i | 0 <= i < |s|
      ensures d[i] == s[i]
    {
      assert d[i] as int == Encode(s)[i] == s[i] as int;
    }
    assert d == s;
  }

  /** End to end: when the framing loop delivers the bytes of a sealed
      telegram (`FrameDelivered` says when it does), `read()` returns its
      header and data, without the line breaks the data starts with. */
  lemma ReadSealed(events: seq<ReadEvent>, n: nat, header: string, data: string)
    requires '!' !in header && '!' !in data
    requires forall j: nat :: !OccursAt(header, "\r\n", j)
    requires IsAscii(Seal(header, data))
    ensures Run(Hunting, events, true) == Finished(Delivered(Encode(Seal(header, data))), n) ==>
      Read(events) == Done(Ok(Telegram(header, LStrip(data + "!", LineBreak))), n)
  {
    if Run(Hunting, events, true) == Finished(Delivered(Encode(Seal(header, data))), n) {
      ReadDelivered(events, Encode(Seal(header, data)), n);
      InterpretSealed(header, data);
    }
  }

  /** Whatever the loop delivers is decoded and parsed, and nothing else. */
  lemma ReadDelivered(events: seq<ReadEvent>, bytes: seq<Byte>, n: nat)
    requires Run(Hunting, events, true) == Finished(Delivered(bytes), n)
    ensures Read(events) == Done(Interpret(bytes), n)
  {
    assert ReadTelegram(events, true) == Run(Hunting, events, true);
  }

  /** The bytes of a sealed telegram decode and parse back into its header
      and data, without the line breaks the data starts with. */
  lemma InterpretSealed(header: string, data: string)
    requires '!' !in header && '!' !in data
    requires forall j: nat :: !OccursAt(header, "\r\n", j)
    requires IsAscii(Seal(header, data))
    ensures Interpret(Encode(Seal(header, data))) == Ok(Telegram(header, LStrip(data + "!", LineBreak)))
  {
    DecodeEncode(Seal(header, data));
    ParseSealed(header, data);
  }

  /** A timeout anywhere, mid-telegram included, ends `read()` with
      `TimeoutError`, never with part of a telegram. */
  lemma ReadTimesOut(before: seq<ReadEvent>, waiting: nat, after: seq<ReadEvent>)
    requires Run(Hunting, before, true).Pending?
    ensures Read(before + [Line([], waiting)] + after) == Done(TimedOut, |before| + 1)
  {
    var events := before + [Line([], waiting)] + after;
    TimeoutMidFrame(before, waiting, after, true);
    assert ReadTelegram(events, true) == Run(Hunting, events, true);
  }
}

=== FILE: TelegramParser.dfy ===
/** `TelegramParser.parse`: cut a received telegram at its first `!` end
    marker, check the CRC trailer when there is one, and split the checked
    text into header and data. */
module TelegramParser {
  import opened Wrappers
  import opened Text
  import opened Crc16
  import opened HexInt
  import opened Telegrams

  /** The exceptions `parse` lets escape: `str.index` finding no `!`,
      `int(_, 16)` rejecting the trailer, and `Telegram` finding no header
      line break. All three are `ValueError` in `dsmr.py`. */
  datatype ParseError = NoEndMarker | BadChecksumText | NoHeaderBreak

  /** What `parse` returns or raises. `ChecksumMismatch` is its `None`. */
  datatype ParseOutcome =
    | Parsed(telegram: Telegram)
    | ChecksumMismatch
    | Raised(error: ParseError)

  /** `Telegram(body)` as an outcome. */
  function Accept(body: string): (r: ParseOutcome)
    ensures r.Parsed? || r == Raised(NoHeaderBreak)
    ensures r.Parsed? <==> MakeTelegram(body).Some?
    ensures r.Parsed? ==> SplitOf(body, r.telegram.header, r.telegram.data)
  {
    match MakeTelegram(body)
    case None => Raised(NoHeaderBreak)
    case Some(t) => Parsed(t)
  }

  /** `parse(telegram)`: the checked part runs through the first `!`; the
      rest, right-stripped, is the checksum trailer. */
  function Parse(raw: string): (r: ParseOutcome)
    ensures r == Raised(NoEndMarker) <==> '!' !in raw
    ensures r.Parsed? ==> 0 < |r.telegram.data| && r.telegram.data[|r.telegram.data| - 1] == '!'
    ensures r.Parsed? ==> '!' !in r.telegram.data[..|r.telegram.data| - 1]
  {
    match IndexOf(raw, '!')
    case None => Raised(NoEndMarker)
    case Some(k) =>
      var body := raw[..k + 1];
      assert body[k] == '!' && body[..k] == raw[..k];
      var r := Check(body, RStrip(raw[k + 1..], Whitespace));
      if r.Parsed? then
        EndsAtMarker(body, r.telegram.header, r.telegram.data);
        r
      else r
  }

  /** The rest of `parse` once the text is cut: a blank trailer skips the
      check; otherwise the trailer must be a hex number equal to the CRC-16
      of the checked part. */
  function Check(body: string, trailer: string): (r: ParseOutcome)
    ensures r != Raised(NoEndMarker)
    ensures r.Parsed? ==> SplitOf(body, r.telegram.header, r.telegram.data)
  {
    if trailer == [] then Accept(body)
    else match ParseHex(trailer)
      case None => Raised(BadChecksumText)
      case Some(v) => if Checksum(body) as int != v then ChecksumMismatch else Accept(body)
  }

  // ----- properties -----

  /** The data of a telegram cut at its first `!` runs up to that `!`. */
  lemma EndsAtMarker(body: string, header: string, data: string)
    requires |body| > 0 && body[|body| - 1] == '!' && '!' !in body[..|body| - 1]
    requires SplitOf(body, header, data)
    ensures 0 < |data| && data[|data| - 1] == '!' && '!' !in data[..|data| - 1]
  {
    assert |data| > 0 by {
      assert body[|body| - 1] !in LineBreak;
    }
    var off := |body| - |data|;
    assert data[|data| - 1] == body[|body| - 1];
    assert data[..|data| - 1] == body[off..|body| - 1];
    assert body[off..|body| - 1] == body[..|body| - 1][off..];
  }

  /** The separators U+001C to U+001F: `rstrip()` drops them at the end
      of the trailer, `int()` does not skip them. */
  const Separators: set<char> := Whitespace - IntSpace

  lemma {:induction false} RStripTwice(s: string, drop: set<char>)
    ensures RStrip(RStrip(s, drop), drop) == RStrip(s, drop)
  {
    var r := RStrip(s, drop);
    assert r == [] || r[|r| - 1] !in drop;
  }

  /** Without separators, `rstrip()` drops exactly what `int()` skips. */
  lemma {:induction false} RStripNoSeparators(s: string)
    requires forall i | 0 <= i < |s| :: s[i] !in Separators
    ensures RStrip(s, Whitespace) == RStrip(s, IntSpace)
    decreases |s|
  {
    if |s| > 0 {
      RStripNoSeparators(s[..|s| - 1]);
    }
  }

  /** `int()` strips the trailer itself, so the `rstrip()` of `dsmr.py` before
      it changes nothing, unless the trailer holds a separator: every
      trailer `int()` accepts, and every trailer without a separator,
      reads the same after `rstrip()`. */
  lemma ParseHexRStrip(s: string)
    ensures (forall i | 0 <= i < |s| :: s[i] !in Separators) ==> ParseHex(RStrip(s, Whitespace)) == ParseHex(s)
    ensures ParseHex(s).Some? ==> ParseHex(RStrip(s, Whitespace)) == ParseHex(s)
  {
    if forall i | 0 <= i < |s| :: s[i] !in Separators {
      RStripNoSeparators(s);
      RStripTwice(s, IntSpace);
    } else {
      var i :| 0 <= i < |s| && s[i] in Separators;
      ParseHexRejects(s, i);
    }
  }

  /** Where the two part: a trailing separator is dropped by `rstrip()`
      and then the number reads, while `int()` alone rejects it. */
  lemma RStripSeparator()
    ensures ParseHex("1\U{1C}") == None
    ensures ParseHex(RStrip("1\U{1C}", Whitespace)) == Some(1)
  {
    var s := "1\U{1C}";
    assert s[1] == '\U{1C}' && s[1] !in IntSpace;
    ParseHexRejects(s, 1);
    RStripOne(s);
    OneDigit("1");
  }

  lemma OneDigit(d: string)
    requires d == "1"
    ensures ParseHex(d) == Some(1)
  {
    assert AllHexDigits(d);
    var e := d[..0];
    assert e == [] && Value(e) == 0;
    assert DigitValue(d[0]) == 1;
    assert Value(d) == 1;
    ParseHexDigits(d);
  }

  lemma RStripOne(s: string)
    requires s == "1\U{1C}"
    ensures RStrip(s, Whitespace) == "1"
  {
    assert s[1] in Whitespace && s[..1] == "1";
    assert RStrip(s, Whitespace) == RStrip("1", Whitespace);
    assert "1"[0] !in Whitespace;
  }

  /** The position of the first `!` in `body + trailer`, when `body` ends
      in its only `!`. */
  lemma CutAtMarker(body: string, trailer: string)
    requires |body| > 0 && body[|body| - 1] == '!' && '!' !in body[..|body| - 1]
    ensures IndexOf(body + trailer, '!') == Some(|body| - 1)
    ensures (body + trailer)[..|body|] == body && (body + trailer)[|body|..] == trailer
  {
    var raw := body + trailer;
    assert raw[..|body| - 1] == body[..|body| - 1];
    IndexOfFirst(raw, '!', |body| - 1);
    assert raw[..|body|] == body;
  }

  /** A trailer that is blank after `rstrip()` skips the checksum: the
      result is `Telegram(body)` whatever the body's CRC. */
  lemma ParseBlankTrailer(body: string, trailer: string)
    requires |body| > 0 && body[|body| - 1] == '!' && '!' !in body[..|body| - 1]
    requires forall i | 0 <= i < |trailer| :: trailer[i] in Whitespace
    ensures Parse(body + trailer) == Accept(body)
  {
    ParseCut(body, trailer);
  }

  /** `parse` on text whose first `!` ends `body` checks `body` against the
      stripped rest. */
  lemma ParseCut(body: string, trailer: string)
    requires |body| > 0 && body[|body| - 1] == '!' && '!' !in body[..|body| - 1]
    ensures Parse(body + trailer) == Check(body, RStrip(trailer, Whitespace))
  {
    CutAtMarker(body, trailer);
  }

  /** A trailer holding a number: the CRC-16 of exactly the text through
      the first `!` decides between `Telegram(body)` and `None`. */
  lemma ParseCheckedTrailer(body: string, trailer: string, v: int)
    requires |body| > 0 && body[|body| - 1] == '!' && '!' !in body[..|body| - 1]
    ensures ParseHex(trailer) == Some(v) ==>
      Parse(body + trailer) == if Checksum(body) as int == v then Accept(body) else ChecksumMismatch
  {
    if ParseHex(trailer) == Some(v) {
      var stripped := RStrip(trailer, Whitespace);
      ParseCut(body, trailer);
      ParseHexRStrip(trailer);
      ParseHexEmpty();
      CheckNumber(body, stripped, v);
    }
  }

  lemma CheckNumber(body: string, trailer: string, v: int)
    requires trailer != []
    ensures ParseHex(trailer) == Some(v) ==>
      Check(body, trailer) == if Checksum(body) as int == v then Accept(body) else ChecksumMismatch
  {
  }

  /** A trailer that `int(_, 16)` rejects makes `parse` raise. */
  lemma ParseBadTrailer(body: string, trailer: string)
    requires |body| > 0 && body[|body| - 1] == '!' && '!' !in body[..|body| - 1]
    requires exists i | 0 <= i < |trailer| :: trailer[i] !in Whitespace
    requires ParseHex(RStrip(trailer, Whitespace)) == None
    ensures Parse(body + trailer) == Raised(BadChecksumText)
  {
    ParseCut(body, trailer);
    var i :| 0 <= i < |trailer| && trailer[i] !in Whitespace;
    assert i < |RStrip(trailer, Whitespace)|;
  }

  /** A meter's telegram: header line, data lines, `!`, then the CRC-16 of
      everything through the `!` as four upper-case hex digits and a line
      break. */
  function Seal(header: string, data: string): string
  {
    header + "\r\n" + data + "!" + Hex4(Checksum(header + "\r\n" + data + "!") as int) + "\r\n"
  }

  lemma SealedBody(header: string, data: string)
    requires '!' !in header && '!' !in data
    ensures var body := header + "\r\n" + data + "!";
      |body| > 0 && body[|body| - 1] == '!' && '!' !in body[..|body| - 1]
  {
    var body := header + "\r\n" + data + "!";
    assert body[..|body| - 1] == header + "\r\n" + data;
  }

  lemma BodyParts(header: string, data: string)
    ensures header + "\r\n" + data + "!" == header + "\r\n" + (data + "!")
  {
  }

  /** Four hex digits and a line break after the `!`: the checksum
      decides. */
  lemma ParseFourDigits(body: string, h: string)
    requires |body| > 0 && body[|body| - 1] == '!' && '!' !in body[..|body| - 1]
    requires |h| == 4 && AllHexDigits(h)
    ensures Parse(body + (h + "\r\n")) == if Checksum(body) as int == Value(h) then Accept(body) else ChecksumMismatch
  {
    TrailerStrip(h);
    ParseHexDigits(h);
    ParseCheckedTrailer(body, h + "\r\n", Value(h));
  }

  /** A well-formed sealed telegram parses back into its header and data:
      the data keeps its `!` and loses the line breaks it starts with (the
      blank line after the identification line). */
  lemma ParseSealed(header: string, data: string)
    requires '!' !in header && '!' !in data
    requires forall j: nat :: !OccursAt(header, "\r\n", j)
    ensures Parse(Seal(header, data)) == Parsed(Telegram(header, LStrip(data + "!", LineBreak)))
  {
    var body := header + "\r\n" + data + "!";
    var c := Checksum(body) as int;
    SealedBody(header, data);
    Hex4Value(c);
    assert Seal(header, data) == body + (Hex4(c) + "\r\n");
    ParseFourDigits(body, Hex4(c));
    BodyParts(header, data);
    MakeTelegramSplit(header, data + "!");
  }

  /** The usual layout of a meter's telegram, with a blank line between
      the identification line and the readings: the blank line is not
      part of the data. */
  lemma ParseBlankLine(header: string, data: string)
    requires '!' !in header && '!' !in data
    requires forall j: nat :: !OccursAt(header, "\r\n", j)
    requires data == [] || data[0] !in LineBreak
    ensures Parse(Seal(header, "\r\n" + data)) == Parsed(Telegram(header, data + "!"))
  {
    NoMarkerAfterBreak(data);
    LStripBlankLine(data + "!");
    assert "\r\n" + data + "!" == "\r\n" + (data + "!");
    ParseSealed(header, "\r\n" + data);
  }

  lemma LStripBlankLine(d: string)
    requires d == [] || d[0] !in LineBreak
    ensures LStrip("\r\n" + d, LineBreak) == d
  {
    var x := "\r\n" + d;
    assert x[0] == '\r' && x[1..][0] == '\n';
    assert x[1..][1..] == d;
  }

  lemma NoMarkerAfterBreak(data: string)
    requires '!' !in data
    ensures '!' !in "\r\n" + data
  {
    var d := "\r\n" + data;
    assert forall i | 2 <= i < |d| :: d[i] == data[i - 2];
  }

  /** Four hex digits and a line break read as the four digits. */
  lemma TrailerStrip(h: string)
    requires |h| == 4 && AllHexDigits(h)
    ensures ParseHex(h + "\r\n") == ParseHex(h)
  {
    var x := h + "\r\n";
    assert x[..|x| - 1] == h + "\r";
    assert (h + "\r")[..|h|] == h;
    HexNotSpace(h[3]);
    HexNotSpace(h[0]);
    assert RStrip(x, IntSpace) == h;
    assert Strip(x, IntSpace) == Strip(h, IntSpace);
  }

  /** Any other four digits in the trailer make `parse` return `None`. */
  lemma ParseCorrupted(header: string, data: string, c: nat)
    requires '!' !in header && '!' !in data
    requires c < 0x10000 && c != Checksum(header + "\r\n" + data + "!") as int
    ensures Parse(header + "\r\n" + data + "!" + Hex4(c) + "\r\n") == ChecksumMismatch
  {
    var body := header + "\r\n" + data + "!";
    SealedBody(header, data);
    Hex4Value(c);
    assert body + Hex4(c) + "\r\n" == body + (Hex4(c) + "\r\n");
    ParseFourDigits(body, Hex4(c));
  }
}

=== FILE: Telegrams.dfy ===
/** A checked telegram split into its header line and its data lines, and
    the lookup of one OBIS identifier in the data. */
module Telegrams {
  import opened Wrappers
  import opened Text
  import opened Obis
  import opened Cosem

  /** The characters `data.lstrip('\r\n')` removes. */
  const LineBreak: set<char> := {'\r', '\n'}

  datatype Telegram = Telegram(header: string, data: string)

  /** `raw` is `header`, the first `\r\n` of `raw`, a run of line-break
      characters, and `data`, which does not start with a line break. */
  ghost predicate SplitOf(raw: string, header: string, data: string)
  {
    && OccursAt(raw, "\r\n", |header|)
    && raw[..|header|] == header
    && (forall j: nat | j < |header| :: !OccursAt(raw, "\r\n", j))
    && |header| + 2 + |data| <= |raw|
    && data == raw[|raw| - |data|..]
    && (forall k | |header| + 2 <= k < |raw| - |data| :: raw[k] in LineBreak)
    && (data == [] || data[0] !in LineBreak)
  }

  lemma SplitAtFirstBreak(raw: string, i: nat)
    requires OccursAt(raw, "\r\n", i)
    requires forall j: nat | j < i :: !OccursAt(raw, "\r\n", j)
    ensures SplitOf(raw, raw[..i], LStrip(raw[i + 2..], LineBreak))
  {
    var rest := raw[i + 2..];
    var data := LStrip(rest, LineBreak);
    forall k | i + 2 <= k < |raw| - |data|
      ensures raw[k] in LineBreak
    {
      assert rest[k - i - 2] == raw[k];
    }
  }

  /** `Telegram(raw)`: the header is the text before the first `\r\n`; the
      data is the rest with every leading `\r` and `\n` removed. `None`
      where the unpacking of `raw.split('\r\n', 1)` raises `ValueError`,
      that is, when `raw` holds no `\r\n`. */
  function MakeTelegram(raw: string): (r: Option<Telegram>)
    ensures r.None? <==> forall j: nat :: !OccursAt(raw, "\r\n", j)
    ensures r.Some? ==> SplitOf(raw, r.value.header, r.value.data)
  {
    match Find(raw, "\r\n", 0)
    case None => None
    case Some(i) =>
      SplitAtFirstBreak(raw, i);
      Some(Telegram(raw[..i], LStrip(raw[i + 2..], LineBreak)))
  }

  /** `telegram[id]`: `None` when the identifier's pattern occurs nowhere
      in the data; otherwise the decoded value of the leftmost match with
      surrounding whitespace stripped. A matched line without `(` raises,
      as `CosemValue` does. */
  function Lookup(t: Telegram, id: ObisId, isNumeric: string -> bool): (r: Result<Option<CosemValue>, CosemError>)
    ensures r == Success(None) <==> forall s: nat, e: nat :: !Matches(t.data, id.Code(), s, e)
    ensures r.Success? && r.value.Some? ==> r.value.value.name == id
  {
    match Search(t.data, id)
    case None => Success(None)
    case Some((s, e)) => LineValue(id, t.data[s..e], isNumeric)
  }

  /** `CosemValue(id, line.strip())` for a matched line, as `telegram[id]`
      returns or raises it. */
  function LineValue(id: ObisId, line: string, isNumeric: string -> bool): (r: Result<Option<CosemValue>, CosemError>)
    ensures r.Success? ==> r.value.Some? && r.value.value.name == id
  {
    match Decode(id, Strip(line, Whitespace), isNumeric)
    case Success(v) => Success(Some(v))
    case Failure(err) => Failure(err)
  }

  // ----- properties -----

  /** The header and the data come back out of the text they were joined
      into, provided the header holds no `\r\n` and the data does not start
      with a line break. */
  lemma MakeTelegramRoundTrip(header: string, data: string)
    requires forall j: nat :: !OccursAt(header, "\r\n", j)
    requires data == [] || data[0] !in LineBreak
    ensures MakeTelegram(header + "\r\n" + data) == Some(Telegram(header, data))
  {
    MakeTelegramSplit(header, data);
  }

  /** Text joined after a header line loses its leading line breaks: the
      blank line a meter sends after its identification line is dropped. */
  lemma MakeTelegramSplit(header: string, rest: string)
    requires forall j: nat :: !OccursAt(header, "\r\n", j)
    ensures MakeTelegram(header + "\r\n" + rest) == Some(Telegram(header, LStrip(rest, LineBreak)))
  {
    var data := rest;
    var raw := header + "\r\n" + data;
    assert OccursAt(raw, "\r\n", |header|) by {
      assert raw[|header|..|header| + 2] == "\r\n";
    }
    forall j: nat | j < |header|
      ensures !OccursAt(raw, "\r\n", j)
    {
      if j + 1 < |header| {
        assert raw[j..j + 2] == header[j..j + 2];
        assert !OccursAt(header, "\r\n", j);
      } else {
        assert raw[j + 1] == '\r';
      }
    }
    var t := MakeTelegram(raw).value;
    assert |t.header| == |header|;
    assert raw[..|header|] == header;
    assert raw[|header| + 2..] == data;
  }

  /** The match is the leftmost occurrence of the identifier's pattern:
      whatever lies after it, even a second line for the same identifier,
      does not change the answer. */
  lemma LookupLeftmost(t: Telegram, id: ObisId, s: nat, e: nat, isNumeric: string -> bool)
    requires Matches(t.data, id.Code(), s, e)
    requires forall s': nat, e': nat | s' < s :: !Matches(t.data, id.Code(), s', e')
    ensures Lookup(t, id, isNumeric) == LineValue(id, t.data[s..e], isNumeric)
  {
    var r := Search(t.data, id);
    assert r.Some?;
    var (s', e') := r.value;
    assert s' == s;
    TailUnique(t.data, s + 4 + |id.Code()|, e, e');
  }

  /** The text of a data line: `<a>-<b>:<code>(<magnitude>*<unit>)`. */
  function ReadingLine(a: char, b: char, id: ObisId, m: string, u: string): string
  {
    [a, '-', b, ':'] + id.Code() + "(" + m + "*" + u + ")"
  }

  lemma ReadingLineParts(a: char, b: char, id: ObisId, m: string, u: string)
    ensures |ReadingLine(a, b, id, m, u)| == 4 + |id.Code()| + |m| + |u| + 3
    ensures ReadingLine(a, b, id, m, u)[4..4 + |id.Code()|] == id.Code()
    ensures ReadingLine(a, b, id, m, u)[..4] == [a, '-', b, ':']
    ensures ReadingLine(a, b, id, m, u)[|ReadingLine(a, b, id, m, u)| - 1] == ')'
  {
  }

  /** A reading line is matched by its identifier's pattern up to and
      including its line break. */
  lemma ReadingLineMatches(a: char, b: char, id: ObisId, m: string, u: string, rest: string)
    requires IsDigit(a) && IsDigit(b)
    requires '\n' !in m && '\n' !in u
    ensures Matches(ReadingLine(a, b, id, m, u) + "\r\n" + rest, id.Code(), 0, |ReadingLine(a, b, id, m, u)| + 2)
  {
    var line := ReadingLine(a, b, id, m, u);
    var data := line + "\r\n" + rest;
    ReadingLineParts(a, b, id, m, u);
    assert data[..|line|] == line;
    assert data[4..4 + |id.Code()|] == id.Code();
    assert line[..4 + |id.Code()|] + "(" + m + "*" + u + ")" == line;
    forall k | 4 + |id.Code()| <= k < |line|
      ensures data[k] != '\n'
    {
      assert data[k] == line[k];
      assert line[k] != '\n' by {
        LineBreakFree(id.Code(), m, u, k - 4);
        assert line[k] == (id.Code() + "(" + m + "*" + u + ")")[k - 4];
      }
    }
  }

  lemma LineBreakFree(c: string, m: string, u: string, k: nat)
    requires k < |c + "(" + m + "*" + u + ")"| && k >= |c|
    requires '\n' !in m && '\n' !in u
    ensures (c + "(" + m + "*" + u + ")")[k] != '\n'
  {
    var x := c + "(" + m + "*" + u + ")";
    assert x[|c|..] == "(" + m + "*" + u + ")";
    assert x[k] == x[|c|..][k - |c|];
  }

  /** A line that neither starts nor ends in whitespace is what stripping
      it with its line break leaves. */
  lemma StripLine(x: string, line: string)
    requires |line| > 0 && line[0] !in Whitespace && line[|line| - 1] !in Whitespace
    requires x == line + "\r\n"
    ensures Strip(x, Whitespace) == line
  {
    assert x[..|x| - 1] == line + "\r";
    assert (line + "\r")[..|line|] == line;
    assert RStrip(x, Whitespace) == line;
  }

  /** A telegram whose data starts with the reading line of an identifier
      yields that reading: the magnitude and unit written are the
      magnitude and unit found. */
  lemma LookupReadingLine(id: ObisId, a: char, b: char, m: string, u: string, rest: string, isNumeric: string -> bool)
    requires IsDigit(a) && IsDigit(b)
    requires '\n' !in m && '\n' !in u && '*' !in m && '*' !in u && isNumeric(m)
    requires u == [] || u[|u| - 1] != ')'
    ensures Lookup(Telegram([], ReadingLine(a, b, id, m, u) + "\r\n" + rest), id, isNumeric)
      == Success(Some(CosemValue(id, Measured(m, u))))
  {
    var line := ReadingLine(a, b, id, m, u);
    var t := Telegram([], line + "\r\n" + rest);
    var x := t.data[0..|line| + 2];
    ReadingLineFirst(id, a, b, m, u, rest, isNumeric);
    ReadingLineStrips(a, b, id, m, u, x);
    ReadingLineDecodes(a, b, id, m, u, isNumeric);
  }

  /** Such a telegram looks up the decoding of its first line. */
  lemma ReadingLineFirst(id: ObisId, a: char, b: char, m: string, u: string, rest: string, isNumeric: string -> bool)
    requires IsDigit(a) && IsDigit(b) && '\n' !in m && '\n' !in u
    ensures var t := Telegram([], ReadingLine(a, b, id, m, u) + "\r\n" + rest);
      Lookup(t, id, isNumeric) == LineValue(id, t.data[0..|ReadingLine(a, b, id, m, u)| + 2], isNumeric)
  {
    var t := Telegram([], ReadingLine(a, b, id, m, u) + "\r\n" + rest);
    ReadingLineMatches(a, b, id, m, u, rest);
    LookupLeftmost(t, id, 0, |ReadingLine(a, b, id, m, u)| + 2, isNumeric);
  }

  /** Stripping a reading line with its line break leaves the line. */
  lemma ReadingLineStrips(a: char, b: char, id: ObisId, m: string, u: string, x: string)
    requires IsDigit(a)
    requires x == ReadingLine(a, b, id, m, u) + "\r\n"
    ensures Strip(x, Whitespace) == ReadingLine(a, b, id, m, u)
  {
    var line := ReadingLine(a, b, id, m, u);
    ReadingLineParts(a, b, id, m, u);
    assert line[0] == line[..4][0] == a;
    DigitNotSpace(a);
    StripLine(x, line);
  }

  /** A reading line decodes to the magnitude and unit written in it. */
  lemma ReadingLineDecodes(a: char, b: char, id: ObisId, m: string, u: string, isNumeric: string -> bool)
    requires IsDigit(a) && IsDigit(b)
    requires '*' !in m && '*' !in u && isNumeric(m)
    requires u == [] || u[|u| - 1] != ')'
    ensures Decode(id, ReadingLine(a, b, id, m, u), isNumeric) == Success(CosemValue(id, Measured(m, u)))
  {
    var line := ReadingLine(a, b, id, m, u);
    ReadingLineParts(a, b, id, m, u);
    var tag := [a, '-', b, ':'] + id.Code();
    TagFree(a, b, id);
    assert line == tag + "(" + m + "*" + u + ")";
    DecodeMeasured(id, tag, m, u, isNumeric);
  }

  lemma DigitNotSpace(c: char)
    requires IsDigit(c)
    ensures c !in Whitespace && ')' !in Whitespace
  {
  }

  /** The head of a reading line holds no `(`. */
  lemma TagFree(a: char, b: char, id: ObisId)
    requires IsDigit(a) && IsDigit(b)
    ensures '(' !in [a, '-', b, ':'] + id.Code()
  {
    CodeChars(id);
    var tag := [a, '-', b, ':'] + id.Code();
    forall i | 0 <= i < |tag|
      ensures tag[i] != '('
    {
      if i >= 4 {
        assert tag[i] == id.Code()[i - 4];
      }
    }
  }
}

=== FILE: Text.dfy ===
/** The handful of Python `str` operations the telegram code relies on,
    stated over `string` (a sequence of characters). */
module Text {
  import opened Wrappers

  /** The characters `str.strip()` and `str.rstrip()` drop when given no
      argument (`str.isspace`), restricted to ASCII: every telegram is
      ASCII-decoded. Besides the usual six they include the four
      separators U+001C to U+001F. */
  const Whitespace: set<char> :=
    {' ', '\t', '\n', '\r', '\U{0B}', '\U{0C}', '\U{1C}', '\U{1D}', '\U{1E}', '\U{1F}'}

  /** `s.rstrip(chars)`: the longest prefix of `s` that does not end in `drop`. */
  function RStrip(s: string, drop: set<char>): (r: string)
    ensures r <= s
    ensures r == [] || r[|r| - 1] !in drop
    ensures forall i | |r| <= i < |s| :: s[i] in drop
  {
    if |s| > 0 && s[|s| - 1] in drop then RStrip(s[..|s| - 1], drop) else s
  }

  /** `s.lstrip(chars)`: the longest suffix of `s` that does not start in `drop`. */
  function LStrip(s: string, drop: set<char>): (r: string)
    ensures |r| <= |s| && r == s[|s| - |r|..]
    ensures r == [] || r[0] !in drop
    ensures forall i | 0 <= i < |s| - |r| :: s[i] in drop
  {
    if |s| > 0 && s[0] in drop then LStrip(s[1..], drop) else s
  }

  /** `s.strip(chars)`: characters in `drop` removed from both ends. */
  function Strip(s: string, drop: set<char>): (r: string)
    ensures |r| <= |s|
    ensures |r| > 0 ==> r[0] !in drop
    ensures |r| > 0 ==> r[|r| - 1] !in drop
  {
    LStrip(RStrip(s, drop), drop)
  }

  /** Text that neither starts nor ends in `drop` is left as it is. */
  lemma StripUntouched(s: string, drop: set<char>)
    requires s == [] || (s[0] !in drop && s[|s| - 1] !in drop)
    ensures Strip(s, drop) == s
  {
  }

  /** `s.index(c)`: the position of the first `c` in `s`, `None` where it
      raises `ValueError`. */
  function IndexOf(s: string, c: char): (r: Option<nat>)
    ensures r.Some? ==> r.value < |s| && s[r.value] == c && c !in s[..r.value]
    ensures r.None? <==> c !in s
  {
    if |s| == 0 then None
    else if s[0] == c then Some(0)
    else match IndexOf(s[1..], c)
      case None => None
      case Some(i) => assert s[1..][..i] == s[1..i + 1]; Some(i + 1)
  }

  /** The first occurrence is where `IndexOf` says it is. */
  lemma {:induction false} IndexOfFirst(s: string, c: char, k: nat)
    requires k < |s| && s[k] == c && c !in s[..k]
    ensures IndexOf(s, c) == Some(k)
    decreases k
  {
    if k > 0 {
      assert s[..k][0] == s[0];
      assert s[1..][..k - 1] == s[..k][1..];
      IndexOfFirst(s[1..], c, k - 1);
    }
  }

  /** `pat` occurs in `s` starting at position `i`. */
  ghost predicate OccursAt(s: string, pat: string, i: nat)
  {
    i + |pat| <= |s| && s[i..i + |pat|] == pat
  }

  /** `s.find(pat, from)` as an option: the first occurrence of `pat` at or
      after `from`. */
  function Find(s: string, pat: string, from: nat): (r: Option<nat>)
    requires |pat| > 0
    ensures r.Some? ==> from <= r.value && OccursAt(s, pat, r.value)
    ensures r.Some? ==> forall j | from <= j < r.value :: !OccursAt(s, pat, j)
    ensures r.None? ==> forall j | from <= j :: !OccursAt(s, pat, j)
    decreases |s| - from
  {
    if from + |pat| > |s| then None
    else if s[from..from + |pat|] == pat then Some(from)
    else Find(s, pat, from + 1)
  }

  /** `strip(chars)` keeps one contiguous run of `s`: everything before
      and after it is in `drop`. */
  lemma StripSlice(s: string, drop: set<char>) returns (k: nat)
    ensures k + |Strip(s, drop)| <= |s| && Strip(s, drop) == s[k..k + |Strip(s, drop)|]
    ensures forall i | 0 <= i < k :: s[i] in drop
    ensures forall i | k + |Strip(s, drop)| <= i < |s| :: s[i] in drop
  {
    var r := RStrip(s, drop);
    var t := LStrip(r, drop);
    k := |r| - |t|;
    SliceOfPrefix(s, r, t, k);
    assert Strip(s, drop) == t;
  }

  lemma SliceOfPrefix(s: string, r: string, t: string, k: nat)
    requires r <= s && k + |t| == |r| && t == r[k..]
    ensures t == s[k..k + |t|]
    ensures forall i | 0 <= i < k :: s[i] == r[i]
  {
    assert r == s[..|r|];
  }

  /** A character outside `drop` survives `strip(chars)`. */
  lemma StripKeeps(s: string, drop: set<char>, i: nat) returns (j: nat)
    requires i < |s| && s[i] !in drop
    ensures j < |Strip(s, drop)| && Strip(s, drop)[j] == s[i]
  {
    var k := StripSlice(s, drop);
    j := i - k;
  }
}

=== FILE: Wrappers.dfy ===
/** Option and Result datatypes shared by the model: Python's `None` and
    raised exceptions become explicit values. */
module Wrappers {

  /** A value that may be absent (Python's `None`). */
  datatype Option<+T> = None | Some(value: T)

  /** A computed value, or the error Python would have raised. */
  datatype Result<+R, +E> = Success(value: R) | Failure(error: E)
}
